=== FILE: README.md ===
# pattern-break: numeric gap detection, modelled in Dafny

`pattern-break` scans directories for files (or sub-directories) whose names
carry numbers, groups them into numeric sequences, and reports the numbers
that are missing from each sequence, together with reconstructed names for
the missing items. This project models the engine between collection and
output formatting:

- **Coverage parsing** (`parse_coverage_list`). Each name is cut into its
  digit blocks. A block policy (`first`, `largest`, `all`,
  `multi-block-advanced`) chooses the seeds. Each seed becomes one sorted
  coverage list, widened by matched `lo-hi` ranges when range expansion is on.
- **Grouping** (`group_items`, `build_subgroups_in_dir`,
  `build_groups_from_flat`, the two label functions). One *pick* is an item
  paired with one of its coverage lists. Picks are sorted by (representative
  value, name), either per directory or pooled across directories. They are
  then cut wherever consecutive representative values jump by more than the
  group threshold. Each group gets an id and a label.
- **Gap detection** (`detect_breaks_in_group`, `build_missing_segment`,
  `guess_prefix_suffix`, `find_closest_prefix_suffix`):
  - the observed values;
  - the expected range, widened by an optional modulus boundary;
  - the leading, internal and trailing missing segments, stepped by the
    increment;
  - the prefix and suffix each missing value borrows from its nearest
    observed neighbour;
  - the group statistics.
- **Output helpers** (`reconstruct`, `csv_escape`).

Modules:

| module | file | models |
|---|---|---|
| `Wrappers` | `wrappers.dfy` | `Option` |
| `Seqs` | `seqs.dfy` | generic concatenation and mapping of sequences, and where an element of a concatenation comes from |
| `Text` | `text.dfy` | the Python string operations the engine relies on: `str`/`int` on decimal digits, `zfill`, `str.find`, string order, `re.sub(r"\d+$", "", p)` |
| `Items` | `items.dfy` | items, coverage lists, picks, the name filter |
| `Coverage` | `coverage.dfy` | `parse_coverage_list` |
| `Naming` | `naming.dfy` | `guess_prefix_suffix`, the group label |
| `Grouping` | `grouping.dfy` | `group_items`, `build_subgroups_in_dir`, `build_groups_from_flat` |
| `Segments` | `segments.dfy` | expected range, planned spans, `build_missing_segment` |
| `Gaps` | `gaps.dfy` | `detect_breaks_in_group`, `find_closest_prefix_suffix` |
| `Output` | `output.dfy` | `reconstruct`, `csv_escape` |

Two facts about the code that a reader might expect to be otherwise:

- The label and the prefix/suffix guess search for `str(v).zfill(len(str(v)))`
  before `str(v)`. That string is `str(v)` itself (`Naming.LookupKey`), so
  only the plain form is ever found.
- The code does not reject an increment of 0 or less, a modulus of 0 or
  less, or an explicit start above an explicit end:
  - a modulus of 0 is falsy and means "no modulus";
  - a negative modulus goes through Python's floor division;
  - reversed explicit bounds are used as given;
  - a non-positive increment hangs the stepping loop (see Findings).

## Model

| member | source | states |
|---|---|---|
| `Items.EmptySubstringAcceptsAll` | pattern-break.py:267-273 | an empty substring filter, falsy in the source, accepts exactly what no filter accepts |
| `Coverage.DigitRuns` | pattern-break.py:288 | every numeric block is a non-empty run of digits; `Coverage.DigitRunsEmptyIff`, `Coverage.DigitRunsSplit` and `Coverage.FirstBlockIsLeftmost` pin which runs are found and in what order |
| `Coverage.DigitRunsEmptyIff` | pattern-break.py:288-290 | the name yields no numeric block exactly when it holds no digit |
| `Coverage.DigitRunsSplit` | pattern-break.py:288 | a non-digit character separates blocks: the blocks of `a + c + b` are those of `a` followed by those of `b` |
| `Coverage.FirstBlockIsLeftmost` | pattern-break.py:288-310 | the first block's value is the value of the leftmost maximal digit run of the name |
| `Coverage.CoverageForBlock` | pattern-break.py:294-307 | a coverage list is strictly ascending and holds its seed. A value is in it exactly when it is the seed, or range expansion is on and it lies between the two ends of some matched range, in either order |
| `Coverage.Seeds` | pattern-break.py:309-334 | `first` seeds the leftmost block, `largest` a block no smaller than any other, and the per-block policies every block in order; no blocks give no seeds |
| `Coverage.ParseCoverageList` | pattern-break.py:279-334 | one coverage list per seed, in seed order, each ascending, holding its seed, and holding exactly the values of the seed or of a matched range |
| `Coverage.NoDigitsNoCoverage` | pattern-break.py:287-290 | a name without digits yields no coverage under every policy |
| `Coverage.CoverageWithoutRanges` | pattern-break.py:309-334 | without range expansion each list is the singleton of its seed: the leftmost block, a largest block, or every block in order |
| `Coverage.AllAgreesWithMultiBlock` | pattern-break.py:319-334 | the `all` and `multi-block-advanced` policies give the same coverage |
| `Naming.LookupKey` | pattern-break.py:615-619 | the zero-filled search string is the plain `str(v)`, so the fallback search looks for the same string |
| `Naming.GuessPrefixSuffix` | pattern-break.py:613-628 | when the name contains `str(v)`, prefix + `str(v)` + suffix rebuilds the name and the prefix holds no earlier occurrence; otherwise the placeholder pair |
| `Naming.GuessSplitsAtFirst` | pattern-break.py:616-628 | the prefix ends at the first occurrence of `str(v)`, and the suffix is what follows that occurrence |
| `Naming.LabelForPicks` | pattern-break.py:458-489 | the label is the sentinel for no picks or an unlocatable value. Otherwise it is the text before the first pick's value with its trailing digit run removed, or the sentinel when nothing is left |
| `Text.ZFill` | pattern-break.py:634-637 | Python's `zfill`: the result is as long as the wider of the text and the width; a wide enough text is kept; otherwise zeros go in front, or after a leading sign |
| `Text.Find` | pattern-break.py:616-618 | Python's `str.find`: the result is an occurrence with no occurrence before it, and there is none exactly when the pattern occurs nowhere |
| `Text.StripDigitSuffix` | pattern-break.py:471 | removes exactly the maximal trailing digit run. With a final newline, the run before the newline goes and the newline stays |
| `Grouping.ItemPicks` | pattern-break.py:360-366 | an item that fails the filter contributes no pick. Otherwise it contributes one pick per seed of its name, in seed order, each for that item with an ascending coverage that holds its seed and, with range expansion on, exactly the matched ranges' values besides |
| `Grouping.SortPicks` | pattern-break.py:370 | the result is sorted by (representative value, name) and is a permutation of the input |
| `Grouping.SplitRuns` | pattern-break.py:384-417 | the runs concatenate back to the input; inside a run every step is at most the threshold, and between runs every step exceeds it |
| `Grouping.SplitRunsSorted` | pattern-break.py:384-417 | each run of a sorted list is sorted |
| `Grouping.DirGroupIdsDistinct` | pattern-break.py:397 | two group ids of one directory are equal exactly when their indices are |
| `Grouping.CrossGroupIdsDistinct` | pattern-break.py:436 | two cross-directory group ids are equal exactly when their indices are |
| `Grouping.BuildSubgroupsInDir` | pattern-break.py:374-417 | with no active threshold there is exactly one group. Ids are `dir__group<i>` in order, each group's label is its picks' label, and the groups' picks concatenate back to the input. With a threshold, the cuts fall exactly at the steps that exceed it |
| `Grouping.BuildGroupsFromFlat` | pattern-break.py:419-456 | no picks give no groups. Otherwise there is one group without a threshold; ids are `crossdir_<i>` with no directory; the groups are non-empty and concatenate back to the pooled picks; cuts fall exactly at steps above the threshold |
| `Grouping.DirGroups` | pattern-break.py:359-417 | a directory's groups hold its sorted picks; there are none exactly when it yields no pick, and one without a threshold. Group `n` has id `dir__group<n>`, the directory as its tag, the requested kind and its picks' label, and is non-empty and sorted. With a threshold the cuts fall exactly at the steps that exceed it |
| `Grouping.GroupPerDir` | pattern-break.py:357-372 | the groups' picks are each directory's sorted picks in directory order; without a threshold there is one group per directory that yields picks |
| `Grouping.GroupPerDirShape` | pattern-break.py:368-371 | every per-directory group is non-empty, sorted and of the requested kind |
| `Grouping.GroupPerDirOrigin` | pattern-break.py:357-417 | every per-directory group is group `n` of some directory that yielded picks, with id `dir__group<n>`, that directory as its tag and its picks' label |
| `Grouping.GroupPerDirCuts` | pattern-break.py:357-417 | with a threshold and distinct directory keys, every step inside a per-directory group is at most the threshold, and two neighbouring groups of the same directory are split at a step that exceeds it |
| `Grouping.GroupItems` | pattern-break.py:340-372 | cross-directory grouping covers the sorted pooled picks with non-empty sorted groups of the requested kind, ids `crossdir_<i>`, no directory and each group's label. There is one group without a threshold when any item yields picks, and with a threshold the cuts fall exactly at the steps above it. Per-directory grouping covers each directory's sorted picks and is the per-directory grouping whose groups `Grouping.GroupPerDirOrigin` and `Grouping.GroupPerDirCuts` characterise |
| `Segments.FloorDiv` | pattern-break.py:550 | Python's `//`: the quotient is floored for both signs of the divisor |
| `Segments.SeqStart` | pattern-break.py:545-550 | the expected start is the explicit start, or else the smallest observed value. Under a positive modulus it is the largest multiple of the modulus not above that value |
| `Segments.SeqEnd` | pattern-break.py:553-558 | the expected end is the explicit end, or else the largest observed value. Under a positive modulus it is one below the next multiple of the modulus above that value |
| `Segments.Reason` | pattern-break.py:638-640 | the reason is the boundary kind, with the boundary note added exactly for a leading or trailing run when explanations are on and a modulus is set |
| `Segments.BuildMissingSegment` | pattern-break.py:630-655 | the segment is empty exactly when `ed < st`. Its values are `st, st + inc, ...`, all within `[st, ed]`, the next step would pass `ed`, and each value is padded to the width of `ed` |
| `Segments.StepLoop` | pattern-break.py:633-648 | the stepping loop run for at most `fuel` rounds. When it ends, it has appended `v, v + inc, ...`, all at most `ed`, with the next value past `ed`. When it runs out of rounds, every value it reached stayed at most `ed` |
| `Segments.BuildMissingSegmentIsLoop` | pattern-break.py:633-648 | the segment's values are exactly what the source's `while v <= ed` loop appends, and the loop ends within `ed - st + 1` rounds |
| `Segments.PaddedNegative` | pattern-break.py:634-637 | a negative value's padded form is exactly as wide as the wider of `str(v)` and `str(ed)`: the minus sign, then zeros, then `str(v)` without its sign, whose digits read back as `-v` |
| `Segments.PaddedNonNegative` | pattern-break.py:634-637 | a non-negative value's padded form is zeros followed by `str(v)`, as wide as the wider of `str(v)` and `str(ed)`, and reads back as `v` |
| `Segments.InternalSpanPresent` | pattern-break.py:571-580 | every adjacent pair of observed values more than `inc` apart yields the internal run from `cur + inc` to `next - 1` |
| `Segments.PlanSpansOrdered` | pattern-break.py:562-589 | the leading, internal and trailing runs come in ascending, non-overlapping order |
| `Segments.PlanSpansAvoid` | pattern-break.py:562-589 | no planned run contains an observed value |
| `Segments.PlanSpansKinds` | pattern-break.py:562-589 | a leading run starts at the expected start below the smallest observed value; an internal run lies strictly inside the observed range; a trailing run ends at the expected end above the largest observed value |
| `Segments.NonPositiveIncrementHangs` | pattern-break.py:571-580 | with an increment of 0 or less, two distinct observed values pass the internal-gap test and the stepping loop for that run never ends |
| `Gaps.ObservedValues` | pattern-break.py:510-533 | the observed values are strictly ascending, contain exactly the values some pick covers, and are non-empty when there are picks |
| `Gaps.RealCovEntries` | pattern-break.py:515-531 | there are no entries exactly when there are no picks, and every entry is a value covered by some pick, carrying that pick's guessed prefix and suffix |
| `Gaps.EntryPlace` | pattern-break.py:515-531 | every nearest-neighbour entry carries a value its pick covers and that pick's prefix and suffix, and every value of every earlier pick has an earlier entry |
| `Gaps.EntriesCoverObserved` | pattern-break.py:523-531 | every observed value has an entry |
| `Gaps.Closest` | pattern-break.py:657-668 | there is no match exactly when there are no entries. The match is no farther from the value than any entry, and strictly nearer than every earlier one, so ties go to the first |
| `Gaps.Neighbour` | pattern-break.py:657-668 | with no entries the placeholder prefix and suffix; otherwise the prefix and suffix of an entry no farther from the value than any other and strictly nearer than every earlier one |
| `Gaps.FirstNearestEntry` | pattern-break.py:657-668 | the entry the nearest-entry search settles on belongs to the first pick covering a nearest value, and carries that pick's guessed prefix and suffix |
| `Gaps.DetectBreaksInGroup` | pattern-break.py:495-611 | no picks give no segments and zero statistics. Otherwise the segment and missing-value counts match the segments. The real count is the number of picks for files and of distinct observed values for directories; the byte estimate is the total size times the missing count over the pick count, for files only |
| `Gaps.DetectOrdered` | pattern-break.py:560-589 | the segments are non-empty and ordered, and the missing values are strictly ascending within and across segments |
| `Gaps.DetectAvoidsObserved` | pattern-break.py:560-589 | no observed value is ever reported missing |
| `Gaps.DetectKinds` | pattern-break.py:562-589 | a leading segment can only come first and a trailing one only last; each kind lies where its run is planned |
| `Gaps.DefaultRangeReachesObserved` | pattern-break.py:544-558 | without explicit bounds and with no or a positive modulus, the expected range reaches both the smallest and the largest observed value |
| `Gaps.DetectComplete` | pattern-break.py:541-589 | with increment 1 and an expected range reaching the observed values, a value is reported missing exactly when it lies in the expected range and is not observed |
| `Gaps.DetectNoSegmentsIff` | pattern-break.py:560-589 | a group reports no segment exactly when the expected start is above the smallest observed value minus the increment, the expected end is below the largest observed value plus the increment, and no two adjacent observed values are more than one increment apart |
| `Gaps.DetectBorrowsNearest` | pattern-break.py:595-600 | every missing item carries the prefix and suffix guessed from the first pick that covers a value nearest to it; no earlier pick covers a nearest value |
| `Gaps.DetectItemFields` | pattern-break.py:634-646 | every missing item is padded to the width of its segment's end value and carries its segment's reason |
| `Gaps.DetectChecked` | pattern-break.py:630-655 | an increment of 0 or less is rejected, and only such an increment. Otherwise the result is ordered and each segment's values are what the stepping loop appends, within a bounded number of rounds |
| `Output.Reconstruct` | pattern-break.py:692-703 | the file-name form is prefix, padded form and suffix in that order; the padded form is the padded text; the number form is non-empty and starts with a minus sign exactly for a negative value; the significant form is the last three characters of the padded text, or all of it when shorter |
| `Output.PaddedReadsBack` | pattern-break.py:695-696 | the padded form of a missing value is at least as wide as the segment end and reads back as the value: digits for a non-negative value, a minus sign and the digits of its magnitude for a negative one |
| `Output.NumberReadsBack` | pattern-break.py:697-698 | the number form is the canonical decimal of the value, after a minus sign when the value is negative |
| `Output.SignificantReadsBack` | pattern-break.py:699-701 | for any padded text that reads back as the value (as `Output.PaddedReadsBack` shows every padded form does), the significant form is at most three characters. It is digits equal to the magnitude modulo 1000, except for a negative value whose padded text has at most three characters, which is shown whole |
| `Output.ReconstructFilename` | pattern-break.py:693-694 | the file-name form is the name of the first pick covering a nearest value, with the first occurrence of that pick's representative value replaced by the padded missing value, or the placeholder prefix and suffix around it |
| `Output.CsvEscape` | pattern-break.py:899-903 | a field holding a comma, quote or line break comes out enclosed in quotes; any other field comes out unchanged |
| `Output.CsvRoundTrip` | pattern-break.py:899-903 | reading an escaped field back gives the original text |
| `Output.CsvEscapeWellFormed` | pattern-break.py:899-903 | an escaped field is well formed under section 2 of RFC 4180: plain, or quoted with every inner quote doubled |

## Left out

- Collection, argument parsing, the main driver, terminal set-up, the help
  lookup, global statistics and every output formatter except `reconstruct`
  and `csv_escape`. These are file-system I/O and presentation.
- The regular-expression name filter (`--pattern`) and the range pattern's
  matches are oracle parameters (`GroupConfig.search`,
  `GroupConfig.rangeMatches`). Python's regular-expression engine is not
  modelled. Matched ranges are given as integer pairs, so `int()` of a
  non-numeric capture is not modelled either.
- Digits are ASCII `0`-`9`. Python's `\d` and `int()` also accept other
  Unicode decimal digits.
- Items.ItemPassesFilter: has no contract of its own. Its regular-expression
  half is an oracle; its substring half is `Text.Contains`.
- Grouping.SortPicks: states sortedness and permutation but not stability.
  The insertion order keeps equal keys in input order, as Python's sort does.
- Segments.SeqStart: states no bound for a negative modulus. The value is
  still computed with Python's floor division, as in the source.
- Segments.SeqEnd: states no bound for a negative modulus, for the same reason.
- Gaps.DetectBreaksInGroup: requires an increment above 0. The source
  accepts any increment, but for 0 or less its stepping loop never ends once
  a run has a value (see Findings). `Gaps.DetectChecked` is the checked entry
  point.
- Gaps.DetectBreaksInGroup: the byte estimate is kept as an exact fraction,
  not the source's float `total_size / real_count * total_missing`.
- Gaps.DetectComplete: proved for increment 1 only. For larger increments
  the model proves order, range and avoidance of observed values, but not
  which off-stride values are reported.
- The source's second early return (no observed values) cannot fire, because
  every coverage list is non-empty. The `is_dir` and `size` fields of
  `real_cov_items` are never read, so the model's entries leave them out.
- Cross-directory entries are modelled as picks without their directory.
  Neither the sort key, the label nor the resulting picks read the directory.
- Grouping.GroupPerDirCuts: requires distinct directory keys. The source
  keeps directories in a dictionary, whose keys are distinct.
- Output.Reconstruct: the unknown-mode fallback is not modelled. The show
  mode is a closed set, and the command line admits only its four values.
- Negative values reach detection in two ways: through a matched range
  pair, when a custom `--range-regex` captures a sign, and through an
  explicit negative start. The model treats them with Python's semantics:
  `zfill` pads after the sign, and `[-3:]` slices the signed text.
- `csv_escape` applies `str()` to non-string values. The model escapes
  strings only.

## Findings

| source | as written | input that shows it | evidently intended | confidence | as-written member | corrected member |
|---|---|---|---|---|---|---|
| pattern-break.py:571-580 | the increment is never checked. With an increment of 0 or less, every adjacent pair of distinct observed values passes `(nval - cval) > increment`. The run from `cval + increment` to `nval - 1` is then stepped by `v += inc`, which never passes `ed` | observed values 1 and 3 with `--increment 0`: the internal run 1..2 is stepped forever | reject an increment of 0 or less as an invalid configuration before detection | high; not executed | `Segments.NonPositiveIncrementHangs` | `Gaps.DetectChecked` |

=== FILE: coverage.dfy ===
/** Coverage extraction: the maximal digit runs of a name, the block policy
    choosing which of them seed a coverage list, and the optional widening of
    every list by the inclusive ranges found in the name. */
module Coverage {
  import opened Text
  import opened Items

  datatype BlockPolicy = First | Largest | All | MultiBlockAdvanced

  /** Length of the maximal run of digits at the start of `s`. */
  function DigitPrefixLen(s: string): (k: nat)
    ensures k <= |s|
    ensures AllDigits(s[..k])
    ensures k < |s| ==> !IsDigit(s[k])
  {
    if s == [] || !IsDigit(s[0]) then 0
    else
      var k := 1 + DigitPrefixLen(s[1..]);
      assert s[..k] == [s[0]] + s[1..][..k - 1];
      k
  }

  /** The maximal digit runs of `s`, left to right (`re.findall(r"(\d+)", s)`). */
  function DigitRuns(s: string): (runs: seq<string>)
    ensures forall i :: 0 <= i < |runs| ==> |runs[i]| > 0 && AllDigits(runs[i])
    decreases |s|
  {
    if s == [] then []
    else if !IsDigit(s[0]) then DigitRuns(s[1..])
    else
      var k := DigitPrefixLen(s);
      [s[..k]] + DigitRuns(s[k..])
  }

  lemma {:induction false} DigitRunsEmptyIff(s: string)
    ensures DigitRuns(s) == [] <==> NoDigits(s)
    decreases |s|
  {
    if s != [] {
      DigitRunsEmptyIff(s[1..]);
      if !IsDigit(s[0]) {
        assert NoDigits(s) <==> NoDigits(s[1..]) by {
          if NoDigits(s[1..]) {
            forall i | 0 <= i < |s| ensures !IsDigit(s[i]) {
              if i > 0 { assert s[i] == s[1..][i - 1]; }
            }
          }
        }
      }
    }
  }

  lemma DigitPrefixLenAll(d: string)
    requires AllDigits(d)
    ensures DigitPrefixLen(d) == |d|
  {
  }

  /** A non-empty string of digits is a single run. */
  lemma DigitRunsOfDigits(d: string)
    requires |d| > 0 && AllDigits(d)
    ensures DigitRuns(d) == [d]
  {
    DigitPrefixLenAll(d);
    assert d[..|d|] == d && d[|d|..] == [];
  }

  lemma {:induction false} DigitPrefixLenBefore(a: string, c: char, b: string)
    requires !IsDigit(c)
    ensures DigitPrefixLen(a + [c] + b) == DigitPrefixLen(a)
    decreases |a|
  {
    var s := a + [c] + b;
    if a != [] && IsDigit(a[0]) {
      assert s[1..] == a[1..] + [c] + b;
      DigitPrefixLenBefore(a[1..], c, b);
    }
  }

  /** A non-digit character separates runs: the runs of `a + [c] + b` are
      those of `a` followed by those of `b`. Together with the two lemmas
      above this pins `DigitRuns` down completely. */
  lemma {:induction false} DigitRunsSplit(a: string, c: char, b: string)
    requires !IsDigit(c)
    ensures DigitRuns(a + [c] + b) == DigitRuns(a) + DigitRuns(b)
    decreases |a|
  {
    var s := a + [c] + b;
    if a == [] {
      assert s[1..] == b;
    } else if !IsDigit(a[0]) {
      assert s[1..] == a[1..] + [c] + b;
      DigitRunsSplit(a[1..], c, b);
    } else {
      DigitPrefixLenBefore(a, c, b);
      var k := DigitPrefixLen(a);
      assert s[..k] == a[..k];
      assert s[k..] == a[k..] + [c] + b;
      DigitRunsSplit(a[k..], c, b);
    }
  }

  /** A digit-free prefix contributes no run. */
  lemma {:induction false} DigitRunsSkip(g: string, t: string)
    requires NoDigits(g)
    ensures DigitRuns(g + t) == DigitRuns(t)
    decreases |g|
  {
    if g != [] {
      var s := g + t;
      assert s != [] && !IsDigit(s[0]);
      assert s[1..] == g[1..] + t;
      assert DigitRuns(s) == DigitRuns(s[1..]);
      DigitRunsSkip(g[1..], t);
    } else {
      assert g + t == t;
    }
  }

  /** The integer value of every digit run, left to right. */
  function BlockValues(name: string): (vals: seq<nat>)
    ensures |vals| == |DigitRuns(name)|
  {
    var runs := DigitRuns(name);
    seq(|runs|, i requires 0 <= i < |runs| => ParseDecimal(runs[i]))
  }

  /** The digit run that starts at the first digit of the name and ends at the
      next non-digit (or the end) is the first block. */
  lemma FirstBlockIsLeftmost(g: string, d: string, rest: string)
    requires NoDigits(g) && |d| > 0 && AllDigits(d)
    requires rest == [] || !IsDigit(rest[0])
    ensures |BlockValues(g + d + rest)| > 0
    ensures BlockValues(g + d + rest)[0] == ParseDecimal(d)
  {
    var name := g + d + rest;
    assert name == g + (d + rest);
    DigitRunsSkip(g, d + rest);
    DigitRunsOfDigits(d);
    if rest == [] {
      assert d + rest == d;
    } else {
      assert d + rest == d + [rest[0]] + rest[1..];
      DigitRunsSplit(d, rest[0], rest[1..]);
    }
  }

  /** Strictly ascending: sorted and free of duplicates, as `sorted(set)` is. */
  predicate Ascending(s: seq<int>) {
    forall i, j :: 0 <= i < j < |s| ==> s[i] < s[j]
  }

  /** Every integer of `[lo, hi]`, ascending (`range(lo, hi + 1)`). */
  function Range(lo: int, hi: int): (r: seq<int>)
    ensures Ascending(r)
    ensures forall x :: x in r <==> lo <= x <= hi
    decreases hi - lo
  {
    if hi < lo then []
    else
      AscendingCons(lo, Range(lo + 1, hi));
      [lo] + Range(lo + 1, hi)
  }

  lemma AscendingTail(s: seq<int>)
    requires Ascending(s) && |s| > 0
    ensures forall x :: x in s[1..] ==> s[0] < x
  {
    forall x | x in s[1..] ensures s[0] < x {
      var j :| 0 <= j < |s[1..]| && s[1..][j] == x;
      assert s[j + 1] == x;
    }
  }

  lemma AscendingCons(x: int, s: seq<int>)
    requires Ascending(s)
    requires forall y :: y in s ==> x < y
    ensures Ascending([x] + s)
  {
    var r := [x] + s;
    forall i, j | 0 <= i < j < |r| ensures r[i] < r[j] {
      assert r[j] == s[j - 1];
      if i > 0 {
        assert r[i] == s[i - 1];
      } else {
        assert s[j - 1] in s;
      }
    }
  }

  /** The ascending union of two ascending lists. */
  function Merge(a: seq<int>, b: seq<int>): (r: seq<int>)
    requires Ascending(a) && Ascending(b)
    ensures Ascending(r)
    ensures forall x :: x in r <==> x in a || x in b
    decreases |a| + |b|
  {
    if a == [] then b
    else if b == [] then a
    else if a[0] < b[0] then
      AscendingTail(a);
      AscendingTail(b);
      var r := Merge(a[1..], b);
      assert forall x :: x in a <==> x == a[0] || x in a[1..] by {
        assert a == [a[0]] + a[1..];
      }
      assert forall x :: x in b <==> x == b[0] || x in b[1..] by {
        assert b == [b[0]] + b[1..];
      }
      AscendingCons(a[0], r);
      [a[0]] + r
    else if b[0] < a[0] then
      AscendingTail(a);
      AscendingTail(b);
      var r := Merge(a, b[1..]);
      assert forall x :: x in a <==> x == a[0] || x in a[1..] by {
        assert a == [a[0]] + a[1..];
      }
      assert forall x :: x in b <==> x == b[0] || x in b[1..] by {
        assert b == [b[0]] + b[1..];
      }
      AscendingCons(b[0], r);
      [b[0]] + r
    else
      AscendingTail(a);
      AscendingTail(b);
      var r := Merge(a[1..], b[1..]);
      assert forall x :: x in a <==> x == a[0] || x in a[1..] by {
        assert a == [a[0]] + a[1..];
      }
      assert forall x :: x in b <==> x == b[0] || x in b[1..] by {
        assert b == [b[0]] + b[1..];
      }
      AscendingCons(a[0], r);
      [a[0]] + r
  }

  /** `x` lies in the inclusive range spanned by a matched pair, whichever
      way round the pair was written. */
  predicate InPair(pair: (int, int), x: int) {
    var lo := if pair.0 <= pair.1 then pair.0 else pair.1;
    var hi := if pair.0 <= pair.1 then pair.1 else pair.0;
    lo <= x <= hi
  }

  lemma InPairsSplit(pairs: seq<(int, int)>)
    requires |pairs| > 0
    ensures forall x :: (exists j :: 0 <= j < |pairs| && InPair(pairs[j], x)) <==>
                        InPair(pairs[0], x) || exists j :: 0 <= j < |pairs[1..]| && InPair(pairs[1..][j], x)
  {
    forall x | exists j :: 0 <= j < |pairs| && InPair(pairs[j], x)
      ensures InPair(pairs[0], x) || exists j :: 0 <= j < |pairs[1..]| && InPair(pairs[1..][j], x)
    {
      var j :| 0 <= j < |pairs| && InPair(pairs[j], x);
      if j > 0 { assert pairs[1..][j - 1] == pairs[j]; }
    }
    forall x, j | 0 <= j < |pairs[1..]| && InPair(pairs[1..][j], x)
      ensures exists j' :: 0 <= j' < |pairs| && InPair(pairs[j'], x)
    {
      assert pairs[j + 1] == pairs[1..][j];
    }
  }

  /** Adds every range of `pairs` to the ascending list `acc`. */
  function AddRanges(acc: seq<int>, pairs: seq<(int, int)>): (r: seq<int>)
    requires Ascending(acc)
    ensures Ascending(r)
    ensures forall x :: x in r <==> x in acc || exists j :: 0 <= j < |pairs| && InPair(pairs[j], x)
    decreases |pairs|
  {
    if pairs == [] then acc
    else
      var lo := if pairs[0].0 <= pairs[0].1 then pairs[0].0 else pairs[0].1;
      var hi := if pairs[0].0 <= pairs[0].1 then pairs[0].1 else pairs[0].0;
      var r := AddRanges(Merge(acc, Range(lo, hi)), pairs[1..]);
      InPairsSplit(pairs);
      r
  }

  /** The sorted coverage a seed value yields: the seed itself, widened by
      every matched range when range expansion is on. `pairs` are the
      captured integer pairs of the range pattern's matches in the name. */
  function CoverageForBlock(seed: int, multiRange: bool, pairs: seq<(int, int)>): (r: Coverage)
    ensures Ascending(r)
    ensures seed in r
    ensures forall x :: x in r <==>
              x == seed || (multiRange && exists j :: 0 <= j < |pairs| && InPair(pairs[j], x))
  {
    if multiRange then
      var r := AddRanges([seed], pairs);
      assert seed in r;
      r
    else [seed]
  }

  /** The largest value of a non-empty list (`max(...)`). */
  function MaxOf(vals: seq<nat>): (m: nat)
    requires |vals| > 0
    ensures m in vals
    ensures forall i :: 0 <= i < |vals| ==> vals[i] <= m
  {
    if |vals| == 1 then vals[0]
    else
      var m := MaxOf(vals[1..]);
      assert forall i :: 1 <= i < |vals| ==> vals[i] == vals[1..][i - 1];
      if vals[0] >= m then vals[0] else m
  }

  /** The block values a policy turns into seeds, in order. */
  function Seeds(vals: seq<nat>, policy: BlockPolicy): (s: seq<nat>)
    ensures vals == [] ==> s == []
    ensures vals != [] && policy == First ==> s == [vals[0]]
    ensures vals != [] && policy == Largest ==>
              |s| == 1 && s[0] in vals && forall i :: 0 <= i < |vals| ==> vals[i] <= s[0]
    ensures policy == All || policy == MultiBlockAdvanced ==> s == vals
  {
    if vals == [] then []
    else
      match policy
      case First => [vals[0]]
      case Largest => [MaxOf(vals)]
      case All => vals
      // the source treats every block distinctly here too, exactly as `All`
      case MultiBlockAdvanced => vals
  }

  /** `parse_coverage_list`: one sorted, duplicate-free coverage list per
      seed. The source drops an empty list, but every list holds its seed, so
      none is ever dropped. */
  function ParseCoverageList(it: Item, policy: BlockPolicy, multiRange: bool, pairs: seq<(int, int)>)
    : (r: seq<Coverage>)
    ensures var seeds := Seeds(BlockValues(it.name), policy);
      && |r| == |seeds|
      && forall k :: 0 <= k < |r| ==>
           && Ascending(r[k])
           && seeds[k] in r[k]
           && forall x :: x in r[k] <==>
                x == seeds[k] || (multiRange && exists j :: 0 <= j < |pairs| && InPair(pairs[j], x))
  {
    var seeds := Seeds(BlockValues(it.name), policy);
    seq(|seeds|, k requires 0 <= k < |seeds| => CoverageForBlock(seeds[k], multiRange, pairs))
  }

  /** A name without digits yields no coverage under any policy. */
  lemma NoDigitsNoCoverage(it: Item, policy: BlockPolicy, multiRange: bool, pairs: seq<(int, int)>)
    requires NoDigits(it.name)
    ensures ParseCoverageList(it, policy, multiRange, pairs) == []
  {
    DigitRunsEmptyIff(it.name);
  }

  /** Without range expansion every coverage list is exactly its seed: the
      leftmost block for `First`, the largest for `Largest`, one singleton per
      block, left to right, for `All` and `MultiBlockAdvanced`. */
  lemma CoverageWithoutRanges(it: Item, policy: BlockPolicy, pairs: seq<(int, int)>)
    ensures var vals := BlockValues(it.name);
      var r := ParseCoverageList(it, policy, false, pairs);
      && (vals != [] && policy == First ==> r == [[vals[0]]])
      && (vals != [] && policy == Largest ==>
            |r| == 1 && |r[0]| == 1 && r[0][0] in vals
            && forall i :: 0 <= i < |vals| ==> vals[i] <= r[0][0])
      && (policy == All || policy == MultiBlockAdvanced ==>
            |r| == |vals| && forall k :: 0 <= k < |r| ==> r[k] == [vals[k]])
  {
  }

  /** The two per-block policies are observably the same. */
  lemma AllAgreesWithMultiBlock(it: Item, multiRange: bool, pairs: seq<(int, int)>)
    ensures ParseCoverageList(it, All, multiRange, pairs)
         == ParseCoverageList(it, MultiBlockAdvanced, multiRange, pairs)
  {
  }
}

=== FILE: gaps.dfy ===
/** Gap detection over one group (`detect_breaks_in_group`): the observed
    values, the expected range, the missing segments, the prefix and suffix
    each missing value borrows from its nearest observed neighbour, and the
    group's statistics. */
module Gaps {
  import opened Wrappers
  import opened Text
  import opened Items
  import opened Coverage
  import opened Naming
  import opened Grouping
  import opened Segments
  import opened Seqs

  // ------------------------------------------------------- observed values

  /** `x` is covered by some pick of the group. */
  predicate Observed(picks: seq<Pick>, x: int) {
    exists k :: 0 <= k < |picks| && x in picks[k].coverage
  }

  lemma ObservedCons(picks: seq<Pick>, x: int)
    requires |picks| > 0
    ensures Observed(picks, x) <==> x in picks[0].coverage || Observed(picks[1..], x)
  {
    if Observed(picks, x) && x !in picks[0].coverage {
      var k :| 0 <= k < |picks| && x in picks[k].coverage;
      assert picks[1..][k - 1] == picks[k];
    }
    if Observed(picks[1..], x) {
      var k :| 0 <= k < |picks[1..]| && x in picks[1..][k].coverage;
      assert picks[k + 1] == picks[1..][k];
    }
  }

  /** The distinct values of a list, ascending. */
  function SortDistinct(s: seq<int>): (r: seq<int>)
    ensures Ascending(r)
    ensures forall x :: x in r <==> x in s
  {
    if s == [] then []
    else
      assert forall x :: x in s <==> x == s[0] || x in s[1..] by {
        assert s == [s[0]] + s[1..];
      }
      Merge([s[0]], SortDistinct(s[1..]))
  }

  /** `sorted(all_ints)`: every value the picks cover, once each, ascending. */
  function ObservedValues(picks: seq<Pick>): (vs: seq<int>)
    ensures Ascending(vs)
    ensures forall x :: x in vs <==> Observed(picks, x)
    ensures picks != [] ==> |vs| > 0
  {
    if picks == [] then []
    else
      var rest := ObservedValues(picks[1..]);
      forall x ensures Observed(picks, x) <==> x in picks[0].coverage || Observed(picks[1..], x) {
        ObservedCons(picks, x);
      }
      var vs := Merge(SortDistinct(picks[0].coverage), rest);
      assert picks[0].coverage[0] in vs;
      vs
  }

  // --------------------------------------------- find_closest_prefix_suffix

  /** One entry of the source's `real_cov_items`: a covered value with the
      prefix and suffix of the pick that covers it. */
  datatype RealCov = RealCov(value: int, prefix: string, suffix: string)

  /** The entries of one pick: every value of its coverage, each with the
      prefix and suffix around the pick's representative value. */
  function PickEntries(p: Pick): (es: seq<RealCov>)
    ensures |es| == |p.coverage|
    ensures forall j :: 0 <= j < |es| ==>
              && es[j].value == p.coverage[j]
              && (es[j].prefix, es[j].suffix) == GuessPrefixSuffix(p.item.name, Rep(p))
  {
    var ps := GuessPrefixSuffix(p.item.name, Rep(p));
    seq(|p.coverage|, j requires 0 <= j < |p.coverage| => RealCov(p.coverage[j], ps.0, ps.1))
  }

  /** `picks[k]` covers `e`'s value and `e` carries the prefix and suffix
      around that pick's representative value. */
  predicate EntryOf(picks: seq<Pick>, k: int, e: RealCov) {
    && 0 <= k < |picks|
    && e.value in picks[k].coverage
    && (e.prefix, e.suffix) == GuessPrefixSuffix(picks[k].item.name, Rep(picks[k]))
  }

  /** `real_cov_items`: the entries of every pick, in pick order. */
  function RealCovEntries(picks: seq<Pick>): (es: seq<RealCov>)
    ensures picks == [] <==> es == []
    ensures forall e :: e in es ==> EntryOfSome(picks, e)
  {
    if picks == [] then []
    else
      var head := PickEntries(picks[0]);
      var rest := RealCovEntries(picks[1..]);
      EntriesOfHead(picks, head);
      EntriesOfTail(picks, rest);
      head + rest
  }

  /** `e` is an entry of some pick. */
  ghost predicate EntryOfSome(picks: seq<Pick>, e: RealCov) {
    exists k :: EntryOf(picks, k, e)
  }

  lemma EntriesOfHead(picks: seq<Pick>, head: seq<RealCov>)
    requires picks != [] && head == PickEntries(picks[0])
    ensures forall e :: e in head ==> EntryOfSome(picks, e)
  {
    forall e | e in head ensures EntryOfSome(picks, e) {
      var i :| 0 <= i < |head| && head[i] == e;
      assert head[i].value == picks[0].coverage[i];
      assert EntryOf(picks, 0, e);
    }
  }

  lemma EntriesOfTail(picks: seq<Pick>, rest: seq<RealCov>)
    requires picks != []
    requires forall e :: e in rest ==> EntryOfSome(picks[1..], e)
    ensures forall e :: e in rest ==> EntryOfSome(picks, e)
  {
    forall e | e in rest ensures EntryOfSome(picks, e) {
      var k :| EntryOf(picks[1..], k, e);
      assert picks[1..][k] == picks[k + 1];
      assert EntryOf(picks, k + 1, e);
    }
  }

  /** The entries are the concatenation of the picks' own entries. */
  lemma {:induction false} EntriesFlatten(picks: seq<Pick>)
    ensures RealCovEntries(picks) == Flatten(MapSeq(PickEntries, picks))
    decreases |picks|
  {
    if picks != [] {
      EntriesFlatten(picks[1..]);
      FlattenCons(PickEntries(picks[0]), MapSeq(PickEntries, picks[1..]));
    }
  }

  /** Every observed value has an entry. */
  lemma {:induction false} EntriesCoverObserved(picks: seq<Pick>, x: int)
    requires Observed(picks, x)
    ensures exists i :: 0 <= i < |RealCovEntries(picks)| && RealCovEntries(picks)[i].value == x
    decreases |picks|
  {
    var here := PickEntries(picks[0]);
    var rest := RealCovEntries(picks[1..]);
    var es := RealCovEntries(picks);
    assert es == here + rest;
    ObservedCons(picks, x);
    if x in picks[0].coverage {
      var j :| 0 <= j < |picks[0].coverage| && picks[0].coverage[j] == x;
      assert es[j] == here[j];
    } else {
      EntriesCoverObserved(picks[1..], x);
      var i :| 0 <= i < |rest| && rest[i].value == x;
      assert es[|here| + i] == rest[i];
    }
  }

  function Dist(a: int, b: int): nat {
    if a >= b then a - b else b - a
  }

  /** The index `find_closest_prefix_suffix` settles on: the first entry
      nearest to `v` (a later entry replaces the best only when strictly
      nearer), or none for no entries. */
  function Closest(v: int, es: seq<RealCov>): (r: Option<nat>)
    ensures r.None? <==> es == []
    ensures r.Some? ==> r.value < |es|
    ensures r.Some? ==> forall i :: 0 <= i < |es| ==> Dist(es[r.value].value, v) <= Dist(es[i].value, v)
    ensures r.Some? ==> forall i :: 0 <= i < r.value ==> Dist(es[r.value].value, v) < Dist(es[i].value, v)
    decreases |es|
  {
    if es == [] then None
    else
      var init := es[..|es| - 1];
      var last := |es| - 1;
      var best := Closest(v, init);
      assert forall i :: 0 <= i < last ==> es[i] == init[i];
      if best.None? || Dist(es[last].value, v) < Dist(es[best.value].value, v) then Some(last)
      else best
  }

  /** The prefix and suffix a missing value borrows: those of the nearest
      entry, or the placeholder pair when there are no entries. */
  function Neighbour(v: int, es: seq<RealCov>): (r: (string, string))
    ensures es == [] ==> r == (UnknownPrefix, UnknownSuffix)
    ensures es != [] ==>
              exists i :: 0 <= i < |es| && r == (es[i].prefix, es[i].suffix)
                && (forall j :: 0 <= j < |es| ==> Dist(es[i].value, v) <= Dist(es[j].value, v))
                && (forall j :: 0 <= j < i ==> Dist(es[i].value, v) < Dist(es[j].value, v))
  {
    match Closest(v, es)
    case Some(i) => (es[i].prefix, es[i].suffix)
    case None => (UnknownPrefix, UnknownSuffix)
  }

  // -------------------------------------------------------------- segments

  /** The options of one detection run; `mod` of 0 and an absent one both
      mean "no modulus". */
  datatype DetectConfig = DetectConfig(startNum: Option<int>, endNum: Option<int>, mod: Option<int>,
                                       increment: int, explain: bool)

  function SegmentOf(sp: Span, cfg: DetectConfig): Segment
    requires cfg.increment > 0
  {
    BuildMissingSegment(sp.st, sp.ed, sp.kind, cfg.explain, cfg.mod, cfg.increment)
  }

  /** The segments built from `sps`, in order, without the empty ones. */
  function Kept(sps: seq<Span>, cfg: DetectConfig): (segs: seq<Segment>)
    requires cfg.increment > 0
    ensures |segs| <= |sps|
  {
    if sps == [] then []
    else
      var s := SegmentOf(sps[0], cfg);
      (if s.count > 0 then [s] else []) + Kept(sps[1..], cfg)
  }

  lemma {:induction false} KeptAppend(a: seq<Span>, b: seq<Span>, cfg: DetectConfig)
    requires cfg.increment > 0
    ensures Kept(a + b, cfg) == Kept(a, cfg) + Kept(b, cfg)
    decreases |a|
  {
    if a != [] {
      assert (a + b)[1..] == a[1..] + b;
      KeptAppend(a[1..], b, cfg);
    } else {
      assert a + b == b;
    }
  }

  /** Every kept segment is non-empty and was built from one of the spans. */
  lemma {:induction false} KeptFromSpans(sps: seq<Span>, cfg: DetectConfig, k: nat)
    requires cfg.increment > 0 && k < |Kept(sps, cfg)|
    ensures Kept(sps, cfg)[k].count > 0
    ensures exists j :: 0 <= j < |sps| && Kept(sps, cfg)[k] == SegmentOf(sps[j], cfg)
    decreases |sps|
  {
    var s := SegmentOf(sps[0], cfg);
    var head := if s.count > 0 then [s] else [];
    var rest := Kept(sps[1..], cfg);
    assert Kept(sps, cfg) == head + rest;
    if k < |head| {
      assert Kept(sps, cfg)[k] == s;
    } else {
      assert Kept(sps, cfg)[k] == rest[k - |head|];
      KeptFromSpans(sps[1..], cfg, k - |head|);
      var j :| 0 <= j < |sps[1..]| && rest[k - |head|] == SegmentOf(sps[1..][j], cfg);
      assert sps[1..][j] == sps[j + 1];
    }
  }

  /** The segment of every span holding at least one value is kept. */
  lemma {:induction false} KeptComplete(sps: seq<Span>, cfg: DetectConfig, j: nat)
    requires cfg.increment > 0 && j < |sps| && SegmentOf(sps[j], cfg).count > 0
    ensures SegmentOf(sps[j], cfg) in Kept(sps, cfg)
    decreases |sps|
  {
    var s := SegmentOf(sps[0], cfg);
    var head := if s.count > 0 then [s] else [];
    var rest := Kept(sps[1..], cfg);
    assert Kept(sps, cfg) == head + rest;
    if j > 0 {
      assert sps[1..][j - 1] == sps[j];
      KeptComplete(sps[1..], cfg, j - 1);
    }
  }

  /** Segments that follow one another without overlapping. */
  predicate SegmentsOrdered(segs: seq<Segment>) {
    forall k, l :: 0 <= k < l < |segs| ==> segs[k].endValue < segs[l].startValue
  }

  /** A bound below every span's start stays below every kept segment's start. */
  lemma KeptStartsAfter(sps: seq<Span>, cfg: DetectConfig, bound: int)
    requires cfg.increment > 0
    requires forall j :: 0 <= j < |sps| ==> bound < sps[j].st
    ensures forall l :: 0 <= l < |Kept(sps, cfg)| ==> bound < Kept(sps, cfg)[l].startValue
  {
    forall l | 0 <= l < |Kept(sps, cfg)| ensures bound < Kept(sps, cfg)[l].startValue {
      KeptFromSpans(sps, cfg, l);
    }
  }

  lemma SpansOrderedTail(sps: seq<Span>)
    requires SpansOrdered(sps) && |sps| > 0
    ensures SpansOrdered(sps[1..])
    ensures forall j :: 0 <= j < |sps[1..]| ==> sps[0].ed < sps[1..][j].st
  {
    forall i, j | 0 <= i < j < |sps[1..]| ensures sps[1..][i].ed < sps[1..][j].st {
      assert sps[1..][i] == sps[i + 1] && sps[1..][j] == sps[j + 1];
    }
    forall j | 0 <= j < |sps[1..]| ensures sps[0].ed < sps[1..][j].st {
      assert sps[1..][j] == sps[j + 1];
    }
  }

  /** Building and dropping empty segments keeps the spans' order. */
  lemma {:induction false} KeptOrdered(sps: seq<Span>, cfg: DetectConfig)
    requires cfg.increment > 0 && SpansOrdered(sps)
    ensures SegmentsOrdered(Kept(sps, cfg))
    decreases |sps|
  {
    if sps != [] {
      var s := SegmentOf(sps[0], cfg);
      var rest := Kept(sps[1..], cfg);
      var segs := Kept(sps, cfg);
      SpansOrderedTail(sps);
      KeptOrdered(sps[1..], cfg);
      if s.count > 0 {
        KeptStartsAfter(sps[1..], cfg, sps[0].ed);
        assert segs == [s] + rest;
        forall k, l | 0 <= k < l < |segs| ensures segs[k].endValue < segs[l].startValue {
          assert segs[l] == rest[l - 1];
          if k > 0 {
            assert segs[k] == rest[k - 1];
          }
        }
      } else {
        assert segs == rest;
      }
    }
  }

  /** The missing values of a list of segments, in order. */
  function MissingValues(segs: seq<Segment>): seq<int> {
    if segs == [] then [] else ItemValues(segs[0].missingItems) + MissingValues(segs[1..])
  }

  /** `x` is a missing value exactly when some segment holds it. */
  lemma {:induction false} MissingValuesMember(segs: seq<Segment>, x: int)
    ensures x in MissingValues(segs) <==>
              exists k :: 0 <= k < |segs| && x in ItemValues(segs[k].missingItems)
    decreases |segs|
  {
    if segs != [] {
      MissingValuesMember(segs[1..], x);
      if exists k :: 0 <= k < |segs[1..]| && x in ItemValues(segs[1..][k].missingItems) {
        var k :| 0 <= k < |segs[1..]| && x in ItemValues(segs[1..][k].missingItems);
        assert segs[k + 1] == segs[1..][k];
      }
      if exists k :: 0 <= k < |segs| && x in ItemValues(segs[k].missingItems) {
        var k :| 0 <= k < |segs| && x in ItemValues(segs[k].missingItems);
        if k > 0 {
          assert segs[1..][k - 1] == segs[k];
        }
      }
    }
  }

  /** A segment whose values ascend from its start value to its end value. */
  predicate Stepped(seg: Segment) {
    && Ascending(ItemValues(seg.missingItems))
    && forall i :: 0 <= i < |seg.missingItems| ==>
         seg.startValue <= seg.missingItems[i].value <= seg.endValue
  }

  lemma AscendingAppend(a: seq<int>, b: seq<int>)
    requires Ascending(a) && Ascending(b)
    requires forall i, j :: 0 <= i < |a| && 0 <= j < |b| ==> a[i] < b[j]
    ensures Ascending(a + b)
  {
    var c := a + b;
    forall i, j | 0 <= i < j < |c| ensures c[i] < c[j] {
      if j < |a| {
        assert c[i] == a[i] && c[j] == a[j];
      } else if i >= |a| {
        assert c[i] == b[i - |a|] && c[j] == b[j - |a|];
      } else {
        assert c[i] == a[i] && c[j] == b[j - |a|];
      }
    }
  }

  /** Ordered, stepped segments list their missing values in strictly
      ascending order: no value is reported twice. */
  lemma {:induction false} MissingValuesAscending(segs: seq<Segment>)
    requires SegmentsOrdered(segs)
    requires forall k :: 0 <= k < |segs| ==> Stepped(segs[k])
    ensures Ascending(MissingValues(segs))
    decreases |segs|
  {
    if segs != [] {
      var here := ItemValues(segs[0].missingItems);
      var rest := MissingValues(segs[1..]);
      assert SegmentsOrdered(segs[1..]) by {
        forall k, l | 0 <= k < l < |segs[1..]| ensures segs[1..][k].endValue < segs[1..][l].startValue {
          assert segs[1..][k] == segs[k + 1] && segs[1..][l] == segs[l + 1];
        }
      }
      assert forall k :: 0 <= k < |segs[1..]| ==> segs[1..][k] == segs[k + 1];
      MissingValuesAscending(segs[1..]);
      forall i, j | 0 <= i < |here| && 0 <= j < |rest| ensures here[i] < rest[j] {
        assert rest[j] in rest;
        MissingValuesMember(segs[1..], rest[j]);
        var k :| 0 <= k < |segs[1..]| && rest[j] in ItemValues(segs[1..][k].missingItems);
        var n :| 0 <= n < |segs[1..][k].missingItems| && ItemValues(segs[1..][k].missingItems)[n] == rest[j];
        assert segs[1..][k] == segs[k + 1];
      }
      AscendingAppend(here, rest);
    }
  }

  // -------------------------------------------------------- prefix filling

  /** A missing item with the prefix and suffix of its nearest entry. */
  function FillItem(mi: MissingItem, es: seq<RealCov>): MissingItem {
    var n := Neighbour(mi.value, es);
    mi.(prefix := n.0, suffix := n.1)
  }

  function FillSegment(seg: Segment, es: seq<RealCov>): (r: Segment)
    ensures ItemValues(r.missingItems) == ItemValues(seg.missingItems)
  {
    var items := seg.missingItems;
    var filled := seq(|items|, i requires 0 <= i < |items| => FillItem(items[i], es));
    assert ItemValues(filled) == ItemValues(items);
    seg.(missingItems := filled)
  }

  /** Filling changes the prefix and suffix of each missing item and
      nothing else: values, padded forms, reasons and segment bounds stay. */
  lemma FillKeeps(seg: Segment, es: seq<RealCov>)
    ensures var r := FillSegment(seg, es);
      && r.startValue == seg.startValue && r.endValue == seg.endValue
      && r.count == seg.count && r.kind == seg.kind
      && |r.missingItems| == |seg.missingItems|
      && forall i :: 0 <= i < |r.missingItems| ==>
           && r.missingItems[i].value == seg.missingItems[i].value
           && r.missingItems[i].padded == seg.missingItems[i].padded
           && r.missingItems[i].reason == seg.missingItems[i].reason
           && (r.missingItems[i].prefix, r.missingItems[i].suffix) == Neighbour(seg.missingItems[i].value, es)
  {
  }

  function FillSegments(segs: seq<Segment>, es: seq<RealCov>): (r: seq<Segment>)
    ensures |r| == |segs|
    ensures forall k :: 0 <= k < |r| ==> r[k] == FillSegment(segs[k], es)
  {
    seq(|segs|, k requires 0 <= k < |segs| => FillSegment(segs[k], es))
  }

  lemma {:induction false} FillSegmentsValues(segs: seq<Segment>, es: seq<RealCov>)
    ensures MissingValues(FillSegments(segs, es)) == MissingValues(segs)
    decreases |segs|
  {
    if segs != [] {
      var r := FillSegments(segs, es);
      assert r[1..] == FillSegments(segs[1..], es);
      FillSegmentsValues(segs[1..], es);
    }
  }

  // ------------------------------------------------ detect_breaks_in_group

  /** A group's statistics. The source's `approx_missing_bytes` is the float
      `total_size / real_count * total_missing`; it is kept here as the exact
      fraction `bytesNumerator / bytesDenominator`, with a denominator of 0
      standing for an estimate of 0. */
  datatype Stats = Stats(numMissing: nat, numReal: nat, numSegments: nat,
                         bytesNumerator: nat, bytesDenominator: nat)
  {
    function ApproxMissingBytes(): real {
      if bytesDenominator == 0 then 0.0 else bytesNumerator as real / bytesDenominator as real
    }
  }

  datatype GroupResult = GroupResult(group: Group, segments: seq<Segment>, stats: Stats)

  /** The first and last expected values of a group with observed values `obs`. */
  function ExpectedStart(obs: seq<int>, cfg: DetectConfig): int
    requires |obs| > 0
  {
    SeqStart(obs[0], cfg.startNum, cfg.mod)
  }

  function ExpectedEnd(obs: seq<int>, cfg: DetectConfig): int
    requires |obs| > 0
  {
    SeqEnd(obs[|obs| - 1], cfg.endNum, cfg.mod)
  }

  /** The source's three blocks in order: the leading run, the internal runs
      and the trailing run, each dropped when it holds no value. */
  function PlannedSegments(obs: seq<int>, cfg: DetectConfig): seq<Segment>
    requires Ascending(obs) && |obs| > 0 && cfg.increment > 0
  {
    Kept(LeadSpans(obs, ExpectedStart(obs, cfg), cfg.increment), cfg)
      + Kept(InternalSpans(obs, cfg.increment), cfg)
      + Kept(TrailSpans(obs, ExpectedEnd(obs, cfg), cfg.increment), cfg)
  }

  lemma PlannedIsKeptPlan(obs: seq<int>, cfg: DetectConfig)
    requires Ascending(obs) && |obs| > 0 && cfg.increment > 0
    ensures PlannedSegments(obs, cfg)
            == Kept(PlanSpans(obs, ExpectedStart(obs, cfg), ExpectedEnd(obs, cfg), cfg.increment), cfg)
  {
    var inc := cfg.increment;
    var lead := LeadSpans(obs, ExpectedStart(obs, cfg), inc);
    var mid := InternalSpans(obs, inc);
    var trail := TrailSpans(obs, ExpectedEnd(obs, cfg), inc);
    KeptAppend(lead, mid, cfg);
    KeptAppend(lead + mid, trail, cfg);
  }

  /** The total size of the picks' items, one term per pick. */
  function TotalSize(picks: seq<Pick>): nat {
    if picks == [] then 0 else picks[0].item.size + TotalSize(picks[1..])
  }

  /** `sum(s["count"] for s in segments)`. */
  function SumCounts(segs: seq<Segment>): nat {
    if segs == [] then 0 else segs[0].count + SumCounts(segs[1..])
  }

  function NatMul(a: nat, b: nat): nat {
    a * b
  }

  /** A segment whose count is the number of its items. */
  predicate Counted(seg: Segment) {
    seg.count == |seg.missingItems|
  }

  lemma {:induction false} SumCountsIsMissing(segs: seq<Segment>)
    requires forall k :: 0 <= k < |segs| ==> Counted(segs[k])
    ensures SumCounts(segs) == |MissingValues(segs)|
    decreases |segs|
  {
    if segs != [] {
      assert forall k :: 0 <= k < |segs[1..]| ==> segs[1..][k] == segs[k + 1];
      SumCountsIsMissing(segs[1..]);
    }
  }

  /** Every kept segment is non-empty, counted and stepped, with the start,
      end and kind of the span it came from. */
  lemma KeptShape(sps: seq<Span>, cfg: DetectConfig)
    requires cfg.increment > 0
    ensures forall k :: 0 <= k < |Kept(sps, cfg)| ==>
              && Kept(sps, cfg)[k].count > 0
              && Counted(Kept(sps, cfg)[k])
              && Stepped(Kept(sps, cfg)[k])
              && exists j :: 0 <= j < |sps|
                   && Kept(sps, cfg)[k].startValue == sps[j].st
                   && Kept(sps, cfg)[k].endValue == sps[j].ed
                   && Kept(sps, cfg)[k].kind == sps[j].kind
  {
    forall k | 0 <= k < |Kept(sps, cfg)| ensures Counted(Kept(sps, cfg)[k]) && Stepped(Kept(sps, cfg)[k]) {
      KeptFromSpans(sps, cfg, k);
    }
    forall k | 0 <= k < |Kept(sps, cfg)|
      ensures Kept(sps, cfg)[k].count > 0
      ensures exists j :: 0 <= j < |sps|
                && Kept(sps, cfg)[k].startValue == sps[j].st
                && Kept(sps, cfg)[k].endValue == sps[j].ed
                && Kept(sps, cfg)[k].kind == sps[j].kind
    {
      KeptFromSpans(sps, cfg, k);
    }
  }

  /** `detect_breaks_in_group`. A group without picks has no segments and
      all-zero statistics; otherwise the missing segments are planned over
      the observed values, their items borrow prefix and suffix from the
      nearest observed value, and the statistics count them. The source's
      second early return (no observed values) cannot fire: every coverage
      list is non-empty. `numReal` counts picks for files and distinct
      observed values for directories; the byte estimate is the average
      item size times the number of missing values, for files only (for
      directories it stays 0). */
  function DetectBreaksInGroup(g: Group, cfg: DetectConfig): (r: GroupResult)
    requires cfg.increment > 0
    ensures r.group == g
    ensures g.picks == [] ==> r.segments == [] && r.stats == Stats(0, 0, 0, 0, 0)
    ensures r.stats.numSegments == |r.segments|
    ensures r.stats.numMissing == |MissingValues(r.segments)|
    ensures g.picks != [] ==> r.stats.numReal == if g.kind == Files then |g.picks| else |ObservedValues(g.picks)|
    ensures g.kind == Files && g.picks != [] ==>
              r.stats.bytesNumerator == TotalSize(g.picks) * r.stats.numMissing
              && r.stats.bytesDenominator == |g.picks|
    ensures g.kind == Dirs ==> r.stats.ApproxMissingBytes() == 0.0
  {
    if g.picks == [] then GroupResult(g, [], Stats(0, 0, 0, 0, 0))
    else
      var obs := ObservedValues(g.picks);
      var planned := PlannedSegments(obs, cfg);
      var segs := FillSegments(planned, RealCovEntries(g.picks));
      PlannedCounted(obs, cfg);
      SumCountsIsMissing(segs);
      var missing := SumCounts(segs);
      var realCount := if g.kind == Files then |g.picks| else |obs|;
      var size := TotalSize(g.picks);
      var stats := if g.kind == Files then Stats(missing, realCount, |segs|, NatMul(size, missing), |g.picks|)
                   else Stats(missing, realCount, |segs|, 0, 0);
      GroupResult(g, segs, stats)
  }

  /** Every planned segment, filled or not, is counted. */
  lemma PlannedCounted(obs: seq<int>, cfg: DetectConfig)
    requires Ascending(obs) && |obs| > 0 && cfg.increment > 0
    ensures forall es: seq<RealCov>, k :: 0 <= k < |FillSegments(PlannedSegments(obs, cfg), es)| ==>
              Counted(FillSegments(PlannedSegments(obs, cfg), es)[k])
  {
    var sps := PlanSpans(obs, ExpectedStart(obs, cfg), ExpectedEnd(obs, cfg), cfg.increment);
    PlannedIsKeptPlan(obs, cfg);
    KeptShape(sps, cfg);
  }

  // ------------------------------------------------------------ properties

  /** The segments of a group with picks are its planned segments, filled. */
  lemma DetectUnfold(g: Group, cfg: DetectConfig)
    requires cfg.increment > 0 && g.picks != []
    ensures DetectBreaksInGroup(g, cfg).segments
            == FillSegments(PlannedSegments(ObservedValues(g.picks), cfg), RealCovEntries(g.picks))
  {
  }

  /** The filled segments keep the planned segments' bounds, kinds, counts
      and values. */
  lemma FilledShape(planned: seq<Segment>, es: seq<RealCov>)
    ensures forall k :: 0 <= k < |planned| ==>
              var f := FillSegments(planned, es)[k];
              && f.startValue == planned[k].startValue && f.endValue == planned[k].endValue
              && f.kind == planned[k].kind && f.count == planned[k].count
              && (Stepped(planned[k]) ==> Stepped(f))
  {
    forall k | 0 <= k < |planned| ensures Stepped(planned[k]) ==> Stepped(FillSegments(planned, es)[k]) {
      FillKeeps(planned[k], es);
    }
  }

  /** The segments of a group do not overlap and list their missing values in
      strictly ascending order; each holds at least one value, stepped from
      its start value to its end value. */
  lemma DetectOrdered(g: Group, cfg: DetectConfig)
    requires cfg.increment > 0
    ensures var segs := DetectBreaksInGroup(g, cfg).segments;
      && SegmentsOrdered(segs)
      && (forall k :: 0 <= k < |segs| ==> segs[k].count > 0 && Stepped(segs[k]))
      && Ascending(MissingValues(segs))
  {
    if g.picks != [] {
      var obs := ObservedValues(g.picks);
      var sps := PlanSpans(obs, ExpectedStart(obs, cfg), ExpectedEnd(obs, cfg), cfg.increment);
      var planned := PlannedSegments(obs, cfg);
      var segs := DetectBreaksInGroup(g, cfg).segments;
      assert segs == FillSegments(planned, RealCovEntries(g.picks));
      PlannedIsKeptPlan(obs, cfg);
      PlanSpansOrdered(obs, ExpectedStart(obs, cfg), ExpectedEnd(obs, cfg), cfg.increment);
      KeptOrdered(sps, cfg);
      KeptShape(sps, cfg);
      FilledShape(planned, RealCovEntries(g.picks));
      MissingValuesAscending(segs);
    }
  }

  /** Every missing value of the kept segments lies in one of the spans. */
  lemma KeptValueInSpan(sps: seq<Span>, cfg: DetectConfig, x: int)
    requires cfg.increment > 0
    requires x in MissingValues(Kept(sps, cfg))
    ensures exists j :: 0 <= j < |sps| && sps[j].st <= x <= sps[j].ed
  {
    var segs := Kept(sps, cfg);
    MissingValuesMember(segs, x);
    var k :| 0 <= k < |segs| && x in ItemValues(segs[k].missingItems);
    KeptFromSpans(sps, cfg, k);
    var j :| 0 <= j < |sps| && segs[k] == SegmentOf(sps[j], cfg);
    var n :| 0 <= n < |segs[k].missingItems| && ItemValues(segs[k].missingItems)[n] == x;
    assert sps[j].st <= x <= sps[j].ed;
  }

  /** A missing value of the planned segments is not an observed value. */
  lemma SpanOfMissing(obs: seq<int>, cfg: DetectConfig, x: int)
    requires Ascending(obs) && |obs| > 0 && cfg.increment > 0
    requires x in MissingValues(PlannedSegments(obs, cfg))
    ensures x !in obs
  {
    var sps := PlanSpans(obs, ExpectedStart(obs, cfg), ExpectedEnd(obs, cfg), cfg.increment);
    PlannedIsKeptPlan(obs, cfg);
    KeptValueInSpan(sps, cfg, x);
    var j :| 0 <= j < |sps| && sps[j].st <= x <= sps[j].ed;
    PlanSpansAvoid(obs, ExpectedStart(obs, cfg), ExpectedEnd(obs, cfg), cfg.increment);
    AvoidsExcludes(sps[j], obs, x);
  }

  lemma AvoidsExcludes(sp: Span, obs: seq<int>, x: int)
    requires Avoids(sp, obs) && sp.st <= x <= sp.ed
    ensures x !in obs
  {
    assert forall i :: 0 <= i < |obs| ==> obs[i] != x;
  }

  /** No observed value is ever reported missing. */
  lemma DetectAvoidsObserved(g: Group, cfg: DetectConfig, x: int)
    requires cfg.increment > 0
    requires x in MissingValues(DetectBreaksInGroup(g, cfg).segments)
    ensures !Observed(g.picks, x)
  {
    var obs := ObservedValues(g.picks);
    var planned := PlannedSegments(obs, cfg);
    FillSegmentsValues(planned, RealCovEntries(g.picks));
    SpanOfMissing(obs, cfg, x);
  }

  /** Where each kind of planned segment lies, and that a leading segment can
      only come first and a trailing one only last. */
  lemma PlannedKinds(obs: seq<int>, cfg: DetectConfig)
    requires Ascending(obs) && |obs| > 0 && cfg.increment > 0
    ensures var planned := PlannedSegments(obs, cfg);
      forall k :: 0 <= k < |planned| ==>
        && (planned[k].kind == Leading ==>
              k == 0 && planned[k].startValue == ExpectedStart(obs, cfg) && planned[k].endValue < obs[0])
        && (planned[k].kind == Internal ==>
              obs[0] < planned[k].startValue && planned[k].endValue < obs[|obs| - 1])
        && (planned[k].kind == Trailing ==>
              k == |planned| - 1 && obs[|obs| - 1] < planned[k].startValue && planned[k].endValue == ExpectedEnd(obs, cfg))
  {
    var inc := cfg.increment;
    var lead := LeadSpans(obs, ExpectedStart(obs, cfg), inc);
    var mid := InternalSpans(obs, inc);
    var trail := TrailSpans(obs, ExpectedEnd(obs, cfg), inc);
    var kl, ki, kt := Kept(lead, cfg), Kept(mid, cfg), Kept(trail, cfg);
    var planned := PlannedSegments(obs, cfg);
    assert planned == kl + ki + kt;
    KeptShape(lead, cfg);
    KeptShape(mid, cfg);
    KeptShape(trail, cfg);
    forall k | 0 <= k < |planned|
      ensures && (planned[k].kind == Leading ==>
                    k == 0 && planned[k].startValue == ExpectedStart(obs, cfg) && planned[k].endValue < obs[0])
              && (planned[k].kind == Internal ==>
                    obs[0] < planned[k].startValue && planned[k].endValue < obs[|obs| - 1])
              && (planned[k].kind == Trailing ==>
                    k == |planned| - 1 && obs[|obs| - 1] < planned[k].startValue && planned[k].endValue == ExpectedEnd(obs, cfg))
    {
      if k < |kl| {
        assert planned[k] == kl[k];
      } else if k < |kl| + |ki| {
        assert planned[k] == ki[k - |kl|];
      } else {
        assert planned[k] == kt[k - |kl| - |ki|];
      }
    }
  }

  /** Where each kind of segment of a group lies: a leading segment starts at
      the expected start, ends below the smallest observed value and can only
      come first; an internal one lies strictly inside the observed range; a
      trailing one starts above the largest observed value, ends at the
      expected end and can only come last. */
  lemma DetectKinds(g: Group, cfg: DetectConfig)
    requires cfg.increment > 0 && g.picks != []
    ensures var obs := ObservedValues(g.picks);
      var segs := DetectBreaksInGroup(g, cfg).segments;
      forall k :: 0 <= k < |segs| ==>
        && (segs[k].kind == Leading ==>
              k == 0 && segs[k].startValue == ExpectedStart(obs, cfg) && segs[k].endValue < obs[0])
        && (segs[k].kind == Internal ==>
              obs[0] < segs[k].startValue && segs[k].endValue < obs[|obs| - 1])
        && (segs[k].kind == Trailing ==>
              k == |segs| - 1 && obs[|obs| - 1] < segs[k].startValue && segs[k].endValue == ExpectedEnd(obs, cfg))
  {
    var obs := ObservedValues(g.picks);
    var planned := PlannedSegments(obs, cfg);
    PlannedKinds(obs, cfg);
    FilledShape(planned, RealCovEntries(g.picks));
  }

  /** With increment 1, every value of a span is one of its segment's values. */
  lemma StepHit(sp: Span, cfg: DetectConfig, x: int)
    requires cfg.increment == 1 && sp.st <= x <= sp.ed
    ensures SegmentOf(sp, cfg).count > 0
    ensures x in ItemValues(SegmentOf(sp, cfg).missingItems)
  {
    var seg := SegmentOf(sp, cfg);
    var n := x - sp.st;
    assert n < seg.count;
    assert ItemValues(seg.missingItems)[n] == x;
  }

  lemma MissingFromSpan(sps: seq<Span>, cfg: DetectConfig, j: nat, x: int)
    requires cfg.increment == 1 && j < |sps| && sps[j].st <= x <= sps[j].ed
    ensures x in MissingValues(Kept(sps, cfg))
  {
    var segs := Kept(sps, cfg);
    StepHit(sps[j], cfg, x);
    KeptComplete(sps, cfg, j);
    var k :| 0 <= k < |segs| && segs[k] == SegmentOf(sps[j], cfg);
    MissingValuesMember(segs, x);
  }

  /** A planned missing value lies in the expected range whenever the range
      contains the observed one. */
  lemma PlannedInRange(obs: seq<int>, cfg: DetectConfig, x: int)
    requires Ascending(obs) && |obs| > 0 && cfg.increment > 0
    requires ExpectedStart(obs, cfg) <= obs[0] && obs[|obs| - 1] <= ExpectedEnd(obs, cfg)
    requires x in MissingValues(PlannedSegments(obs, cfg))
    ensures ExpectedStart(obs, cfg) <= x <= ExpectedEnd(obs, cfg)
  {
    var start, end := ExpectedStart(obs, cfg), ExpectedEnd(obs, cfg);
    var sps := PlanSpans(obs, start, end, cfg.increment);
    PlannedIsKeptPlan(obs, cfg);
    KeptValueInSpan(sps, cfg, x);
    var j :| 0 <= j < |sps| && sps[j].st <= x <= sps[j].ed;
    PlanSpansKinds(obs, start, end, cfg.increment);
    ObservedBounds(obs);
    SpanInRange(sps[j], obs, start, end, x);
  }

  lemma SpanInRange(sp: Span, obs: seq<int>, start: int, end: int, x: int)
    requires |obs| > 0 && start <= obs[0] <= obs[|obs| - 1] <= end
    requires sp.st <= x <= sp.ed
    requires sp.kind == Leading ==> sp.ed < obs[0] && sp.st == start
    requires sp.kind == Internal ==> obs[0] < sp.st <= sp.ed < obs[|obs| - 1]
    requires sp.kind == Trailing ==> obs[|obs| - 1] < sp.st && sp.ed == end
    ensures start <= x <= end
  {
  }

  lemma {:induction false} MissingValuesAppend(a: seq<Segment>, b: seq<Segment>)
    ensures MissingValues(a + b) == MissingValues(a) + MissingValues(b)
    decreases |a|
  {
    if a == [] {
      assert a + b == b;
    } else {
      assert (a + b)[1..] == a[1..] + b;
      MissingValuesAppend(a[1..], b);
    }
  }

  /** An unobserved value strictly between two observed values is missing
      from the internal segments when the increment is 1. */
  lemma InternalComplete(obs: seq<int>, cfg: DetectConfig, x: int)
    requires Ascending(obs) && |obs| > 0 && cfg.increment == 1
    requires obs[0] < x < obs[|obs| - 1] && x !in obs
    ensures x in MissingValues(Kept(InternalSpans(obs, 1), cfg))
  {
    var mid := InternalSpans(obs, 1);
    var i := Bracket(obs, x);
    InternalSpanPresent(obs, 1, i);
    var j :| 0 <= j < |mid| && mid[j] == Span(obs[i] + 1, obs[i + 1] - 1, Internal);
    MissingFromSpan(mid, cfg, j, x);
  }

  /** Values from `start` up to just below the smallest observed value are
      missing from the leading segment when the increment is 1. */
  lemma LeadComplete(obs: seq<int>, start: int, cfg: DetectConfig, x: int)
    requires |obs| > 0 && cfg.increment == 1 && start <= x < obs[0]
    ensures x in MissingValues(Kept(LeadSpans(obs, start, 1), cfg))
  {
    assert LeadSpans(obs, start, 1)[0] == Span(start, obs[0] - 1, Leading);
    MissingFromSpan(LeadSpans(obs, start, 1), cfg, 0, x);
  }

  /** Values from just above the largest observed value up to `end` are
      missing from the trailing segment when the increment is 1. */
  lemma TrailComplete(obs: seq<int>, end: int, cfg: DetectConfig, x: int)
    requires |obs| > 0 && cfg.increment == 1 && obs[|obs| - 1] < x <= end
    ensures x in MissingValues(Kept(TrailSpans(obs, end, 1), cfg))
  {
    assert TrailSpans(obs, end, 1)[0] == Span(obs[|obs| - 1] + 1, end, Trailing);
    MissingFromSpan(TrailSpans(obs, end, 1), cfg, 0, x);
  }

  /** The planned missing values are those of the leading, internal and
      trailing segments, in that order. */
  lemma PlannedParts(obs: seq<int>, cfg: DetectConfig)
    requires Ascending(obs) && |obs| > 0 && cfg.increment > 0
    ensures MissingValues(PlannedSegments(obs, cfg))
            == MissingValues(Kept(LeadSpans(obs, ExpectedStart(obs, cfg), cfg.increment), cfg))
               + MissingValues(Kept(InternalSpans(obs, cfg.increment), cfg))
               + MissingValues(Kept(TrailSpans(obs, ExpectedEnd(obs, cfg), cfg.increment), cfg))
  {
    var kl := Kept(LeadSpans(obs, ExpectedStart(obs, cfg), cfg.increment), cfg);
    var ki := Kept(InternalSpans(obs, cfg.increment), cfg);
    var kt := Kept(TrailSpans(obs, ExpectedEnd(obs, cfg), cfg.increment), cfg);
    MissingValuesAppend(kl, ki);
    MissingValuesAppend(kl + ki, kt);
  }

  /** With increment 1 every unobserved value of the expected range is
      planned missing. */
  lemma PlannedComplete(obs: seq<int>, cfg: DetectConfig, x: int)
    requires Ascending(obs) && |obs| > 0 && cfg.increment == 1
    requires ExpectedStart(obs, cfg) <= x <= ExpectedEnd(obs, cfg) && x !in obs
    ensures x in MissingValues(PlannedSegments(obs, cfg))
  {
    PlannedParts(obs, cfg);
    assert obs[0] in obs && obs[|obs| - 1] in obs;
    if x < obs[0] {
      LeadComplete(obs, ExpectedStart(obs, cfg), cfg, x);
    } else if x > obs[|obs| - 1] {
      TrailComplete(obs, ExpectedEnd(obs, cfg), cfg, x);
    } else {
      InternalComplete(obs, cfg, x);
    }
  }

  /** Without explicit bounds, and with no modulus or a positive one, the
      expected range reaches the smallest and the largest observed value. */
  lemma DefaultRangeReachesObserved(obs: seq<int>, cfg: DetectConfig)
    requires |obs| > 0 && cfg.startNum.None? && cfg.endNum.None?
    requires !ModActive(cfg.mod) || cfg.mod.value > 0
    ensures ExpectedStart(obs, cfg) <= obs[0] && obs[|obs| - 1] <= ExpectedEnd(obs, cfg)
  {
  }

  /** With increment 1 and an expected range that reaches the observed
      values (always so without explicit bounds and with a positive or no
      modulus), the missing values are exactly the unobserved values of the
      expected range. */
  lemma DetectComplete(g: Group, cfg: DetectConfig, x: int)
    requires cfg.increment == 1 && g.picks != []
    requires var obs := ObservedValues(g.picks);
      ExpectedStart(obs, cfg) <= obs[0] && obs[|obs| - 1] <= ExpectedEnd(obs, cfg)
    ensures var obs := ObservedValues(g.picks);
      x in MissingValues(DetectBreaksInGroup(g, cfg).segments)
      <==> ExpectedStart(obs, cfg) <= x <= ExpectedEnd(obs, cfg) && !Observed(g.picks, x)
  {
    var obs := ObservedValues(g.picks);
    var planned := PlannedSegments(obs, cfg);
    FillSegmentsValues(planned, RealCovEntries(g.picks));
    if x in MissingValues(planned) {
      SpanOfMissing(obs, cfg, x);
      PlannedInRange(obs, cfg, x);
    }
    if ExpectedStart(obs, cfg) <= x <= ExpectedEnd(obs, cfg) && !Observed(g.picks, x) {
      PlannedComplete(obs, cfg, x);
    }
  }

  /** Every span is dropped exactly when every span is empty. */
  lemma KeptEmptyIff(sps: seq<Span>, cfg: DetectConfig)
    requires cfg.increment > 0
    ensures Kept(sps, cfg) == [] <==> forall j :: 0 <= j < |sps| ==> sps[j].ed < sps[j].st
  {
    if Kept(sps, cfg) != [] {
      KeptFromSpans(sps, cfg, 0);
    }
    if exists j :: 0 <= j < |sps| && sps[j].st <= sps[j].ed {
      var j :| 0 <= j < |sps| && sps[j].st <= sps[j].ed;
      KeptComplete(sps, cfg, j);
    }
  }

  /** There are no internal spans exactly when no two adjacent observed
      values are more than `inc` apart. */
  lemma {:induction false} InternalSpansEmptyIff(obs: seq<int>, inc: int)
    requires Ascending(obs) && inc > 0
    ensures InternalSpans(obs, inc) == [] <==> forall i :: 0 <= i < |obs| - 1 ==> obs[i + 1] - obs[i] <= inc
    decreases |obs|
  {
    if exists i :: 0 <= i < |obs| - 1 && obs[i + 1] - obs[i] > inc {
      var i :| 0 <= i < |obs| - 1 && obs[i + 1] - obs[i] > inc;
      InternalSpanPresent(obs, inc, i);
    } else if |obs| >= 2 {
      assert forall i :: 0 <= i < |obs[1..]| ==> obs[1..][i] == obs[i + 1];
      InternalSpansEmptyIff(obs[1..], inc);
    }
  }

  lemma LeadEmptyIff(obs: seq<int>, start: int, cfg: DetectConfig)
    requires |obs| > 0 && cfg.increment > 0
    ensures Kept(LeadSpans(obs, start, cfg.increment), cfg) == [] <==> start > obs[0] - cfg.increment
  {
    KeptEmptyIff(LeadSpans(obs, start, cfg.increment), cfg);
  }

  lemma TrailEmptyIff(obs: seq<int>, end: int, cfg: DetectConfig)
    requires |obs| > 0 && cfg.increment > 0
    ensures Kept(TrailSpans(obs, end, cfg.increment), cfg) == [] <==> end < obs[|obs| - 1] + cfg.increment
  {
    KeptEmptyIff(TrailSpans(obs, end, cfg.increment), cfg);
  }

  lemma MidEmptyIff(obs: seq<int>, cfg: DetectConfig)
    requires Ascending(obs) && cfg.increment > 0
    ensures Kept(InternalSpans(obs, cfg.increment), cfg) == [] <==>
              forall i :: 0 <= i < |obs| - 1 ==> obs[i + 1] - obs[i] <= cfg.increment
  {
    var mid := InternalSpans(obs, cfg.increment);
    KeptEmptyIff(mid, cfg);
    InternalSpansEmptyIff(obs, cfg.increment);
    if mid != [] {
      assert mid[0].st <= mid[0].ed;
    }
  }

  /** The planned segments are empty exactly when the expected start is
      above the smallest observed value minus the increment, the expected end
      is below the largest observed value plus the increment, and no two
      adjacent observed values are more than one increment apart. A start
      above the smallest value or an end below the largest plans nothing. */
  lemma PlannedEmptyIff(obs: seq<int>, cfg: DetectConfig)
    requires Ascending(obs) && |obs| > 0 && cfg.increment > 0
    ensures PlannedSegments(obs, cfg) == [] <==>
              && ExpectedStart(obs, cfg) > obs[0] - cfg.increment
              && ExpectedEnd(obs, cfg) < obs[|obs| - 1] + cfg.increment
              && forall i :: 0 <= i < |obs| - 1 ==> obs[i + 1] - obs[i] <= cfg.increment
  {
    LeadEmptyIff(obs, ExpectedStart(obs, cfg), cfg);
    MidEmptyIff(obs, cfg);
    TrailEmptyIff(obs, ExpectedEnd(obs, cfg), cfg);
  }

  /** A group with picks reports no segment exactly when the expected start
      is above the smallest observed value minus the increment, the expected
      end is below the largest observed value plus the increment, and no two
      adjacent observed values are more than one increment apart. */
  lemma DetectNoSegmentsIff(g: Group, cfg: DetectConfig)
    requires cfg.increment > 0 && g.picks != []
    ensures var obs := ObservedValues(g.picks);
      DetectBreaksInGroup(g, cfg).segments == [] <==>
        && ExpectedStart(obs, cfg) > obs[0] - cfg.increment
        && ExpectedEnd(obs, cfg) < obs[|obs| - 1] + cfg.increment
        && forall i :: 0 <= i < |obs| - 1 ==> obs[i + 1] - obs[i] <= cfg.increment
  {
    var obs := ObservedValues(g.picks);
    DetectUnfold(g, cfg);
    PlannedEmptyIff(obs, cfg);
  }

  /** `picks[q]` covers a value nearest to `v` among all observed values. */
  ghost predicate NearestPick(picks: seq<Pick>, q: int, v: int) {
    && 0 <= q < |picks|
    && exists w :: w in picks[q].coverage && forall y :: Observed(picks, y) ==> Dist(w, v) <= Dist(y, v)
  }

  /** `mi` carries the prefix and suffix guessed from pick `q`, the first
      pick that covers a value nearest to `mi`'s value. */
  ghost predicate BorrowsFrom(picks: seq<Pick>, mi: MissingItem, q: int) {
    && NearestPick(picks, q, mi.value)
    && (forall q' :: 0 <= q' < q ==> !NearestPick(picks, q', mi.value))
    && (mi.prefix, mi.suffix) == GuessPrefixSuffix(picks[q].item.name, Rep(picks[q]))
  }

  /** Every missing item carries the prefix and suffix of a pick that covers
      a value nearest to the missing one among all observed values. */
  lemma DetectBorrowsNearest(g: Group, cfg: DetectConfig, k: nat, i: nat)
    requires cfg.increment > 0
    requires k < |DetectBreaksInGroup(g, cfg).segments|
    requires i < |DetectBreaksInGroup(g, cfg).segments[k].missingItems|
    ensures var mi := DetectBreaksInGroup(g, cfg).segments[k].missingItems[i];
      exists q :: BorrowsFrom(g.picks, mi, q)
  {
    var obs := ObservedValues(g.picks);
    var planned := PlannedSegments(obs, cfg);
    var es := RealCovEntries(g.picks);
    var segs := DetectBreaksInGroup(g, cfg).segments;
    assert segs == FillSegments(planned, es);
    FillKeeps(planned[k], es);
    var mi := segs[k].missingItems[i];
    var v := mi.value;
    var c := Closest(v, es).value;
    var q := FirstNearestEntry(g.picks, v, c);
    assert (mi.prefix, mi.suffix) == (es[c].prefix, es[c].suffix);
    assert BorrowsFrom(g.picks, mi, q);
  }

  /** The pick behind the entry `Closest` settles on covers a nearest value,
      and no earlier pick does: an earlier pick's entries all come before
      that entry, so each of them is strictly farther from `v`. */
  lemma FirstNearestEntry(picks: seq<Pick>, v: int, c: nat) returns (q: nat)
    requires Closest(v, RealCovEntries(picks)) == Some(c)
    ensures NearestPick(picks, q, v)
    ensures forall q' :: 0 <= q' < q ==> !NearestPick(picks, q', v)
    ensures (RealCovEntries(picks)[c].prefix, RealCovEntries(picks)[c].suffix)
              == GuessPrefixSuffix(picks[q].item.name, Rep(picks[q]))
  {
    var es := RealCovEntries(picks);
    q := EntryPlace(picks, c);
    var w := es[c].value;
    forall y | Observed(picks, y) ensures Dist(w, v) <= Dist(y, v) {
      EntriesCoverObserved(picks, y);
    }
    forall q' | 0 <= q' < q ensures !NearestPick(picks, q', v) {
      forall u | u in picks[q'].coverage ensures Dist(w, v) < Dist(u, v) {
        var n' :| 0 <= n' < |picks[q'].coverage| && picks[q'].coverage[n'] == u;
        var i' :| 0 <= i' < c && es[i'].value == picks[q'].coverage[n'];
      }
      assert Observed(picks, w);
    }
  }

  /** The pick an entry comes from, with every value of every earlier pick
      entered before it. */
  lemma EntryPlace(picks: seq<Pick>, c: nat) returns (q: nat)
    requires c < |RealCovEntries(picks)|
    ensures q < |picks| && EntryOf(picks, q, RealCovEntries(picks)[c])
    ensures forall q', n' :: 0 <= q' < q && 0 <= n' < |picks[q'].coverage| ==>
              exists i' :: 0 <= i' < c && RealCovEntries(picks)[i'].value == picks[q'].coverage[n']
  {
    var es := RealCovEntries(picks);
    var parts := MapSeq(PickEntries, picks);
    EntriesFlatten(picks);
    var n;
    q, n := FlattenIndex(parts, c);
    MapSeqAt(PickEntries, picks, q);
    forall q', n' | 0 <= q' < q && 0 <= n' < |picks[q'].coverage|
      ensures exists i' :: 0 <= i' < c && es[i'].value == picks[q'].coverage[n']
    {
      MapSeqAt(PickEntries, picks, q');
      assert PlacedBefore(parts, c, q', n');
      var i' :| 0 <= i' < c && i' < |es| && es[i'] == parts[q'][n'];
    }
  }

  /** Every missing item is padded to the width of its segment's end value
      and carries its segment's reason. */
  lemma DetectItemFields(g: Group, cfg: DetectConfig, k: nat, i: nat)
    requires cfg.increment > 0
    requires k < |DetectBreaksInGroup(g, cfg).segments|
    requires i < |DetectBreaksInGroup(g, cfg).segments[k].missingItems|
    ensures var seg := DetectBreaksInGroup(g, cfg).segments[k];
      && seg.missingItems[i].padded == Padded(seg.missingItems[i].value, seg.endValue)
      && seg.missingItems[i].reason == Reason(seg.kind, cfg.explain, cfg.mod)
  {
    var obs := ObservedValues(g.picks);
    var planned := PlannedSegments(obs, cfg);
    var sps := PlanSpans(obs, ExpectedStart(obs, cfg), ExpectedEnd(obs, cfg), cfg.increment);
    DetectUnfold(g, cfg);
    PlannedIsKeptPlan(obs, cfg);
    KeptFromSpans(sps, cfg, k);
    FillKeeps(planned[k], RealCovEntries(g.picks));
  }

  // ------------------------------------------------- configuration check

  /** The outcome of a detection run that first checks its configuration. */
  datatype Outcome = InvalidConfiguration | Detected(result: GroupResult)

  /** Detection behind a configuration check: an increment of 0 or less is
      rejected before any stepping starts (the source accepts it and, once
      a run has a value to step, loops forever); otherwise the group is
      detected as usual, and every segment's values are exactly what the
      stepping loop appends within `endValue - startValue + 1` rounds. */
  function DetectChecked(g: Group, cfg: DetectConfig): (r: Outcome)
    ensures r.InvalidConfiguration? <==> cfg.increment <= 0
    ensures r.Detected? ==>
              && r.result.group == g
              && SegmentsOrdered(r.result.segments)
              && forall k :: 0 <= k < |r.result.segments| ==> LoopAgrees(r.result.segments[k], cfg.increment)
  {
    if cfg.increment <= 0 then InvalidConfiguration
    else
      DetectOrdered(g, cfg);
      DetectLoopsEnd(g, cfg);
      Detected(DetectBreaksInGroup(g, cfg))
  }

  /** Every segment of a detection run with a positive increment is what the
      stepping loop appends over its bounds. */
  lemma DetectLoopsEnd(g: Group, cfg: DetectConfig)
    requires cfg.increment > 0
    ensures var segs := DetectBreaksInGroup(g, cfg).segments;
      forall k :: 0 <= k < |segs| ==> LoopAgrees(segs[k], cfg.increment)
  {
    var segs := DetectBreaksInGroup(g, cfg).segments;
    forall k | 0 <= k < |segs| ensures LoopAgrees(segs[k], cfg.increment) {
      SegmentIsLoop(g, cfg, k);
    }
  }

  /** The segment's values are what the stepping loop appends over its
      bounds within `endValue - startValue + 1` rounds. */
  predicate LoopAgrees(seg: Segment, inc: int) {
    && seg.startValue <= seg.endValue
    && StepLoop(seg.startValue, seg.endValue, inc, seg.endValue - seg.startValue + 1)
       == Some(ItemValues(seg.missingItems))
  }

  lemma KeptIsLoop(sps: seq<Span>, cfg: DetectConfig, k: nat)
    requires cfg.increment > 0 && k < |Kept(sps, cfg)|
    ensures LoopAgrees(Kept(sps, cfg)[k], cfg.increment)
  {
    KeptFromSpans(sps, cfg, k);
    var j :| 0 <= j < |sps| && Kept(sps, cfg)[k] == SegmentOf(sps[j], cfg);
    SegmentOfIsLoop(sps[j], cfg);
  }

  lemma SegmentOfIsLoop(sp: Span, cfg: DetectConfig)
    requires cfg.increment > 0 && SegmentOf(sp, cfg).count > 0
    ensures LoopAgrees(SegmentOf(sp, cfg), cfg.increment)
  {
    BuildMissingSegmentIsLoop(sp.st, sp.ed, sp.kind, cfg.explain, cfg.mod, cfg.increment);
  }

  lemma FillIsLoop(seg: Segment, es: seq<RealCov>, inc: int)
    requires LoopAgrees(seg, inc)
    ensures LoopAgrees(FillSegment(seg, es), inc)
  {
    FillKeeps(seg, es);
  }

  lemma SegmentIsLoop(g: Group, cfg: DetectConfig, k: nat)
    requires cfg.increment > 0
    requires k < |DetectBreaksInGroup(g, cfg).segments|
    ensures LoopAgrees(DetectBreaksInGroup(g, cfg).segments[k], cfg.increment)
  {
    var obs := ObservedValues(g.picks);
    var planned := PlannedSegments(obs, cfg);
    var es := RealCovEntries(g.picks);
    var sps := PlanSpans(obs, ExpectedStart(obs, cfg), ExpectedEnd(obs, cfg), cfg.increment);
    DetectUnfold(g, cfg);
    PlannedIsKeptPlan(obs, cfg);
    KeptIsLoop(sps, cfg, k);
    FillIsLoop(planned[k], es, cfg.increment);
  }


}

=== FILE: grouping.dfy ===
/** The grouper: picks are sorted by (representative value, name) and cut
    into groups wherever consecutive representative values jump by more than
    the threshold, either per directory or over one pooled list. */
module Grouping {
  import opened Wrappers
  import opened Text
  import opened Items
  import opened Coverage
  import opened Naming
  import opened Seqs

  datatype ArtifactKind = Files | Dirs

  /** A group: `directory` is `None` for a cross-directory group. */
  datatype Group = Group(groupId: string, directory: Option<string>, labelText: string,
                         kind: ArtifactKind, picks: seq<Pick>)

  /** The items collected from one directory, in collection order. */
  datatype DirItems = DirItems(dir: string, items: seq<Item>)

  /** The grouping options. `search` is the regular-expression filter as an
      oracle; `rangeMatches` gives the captured integer pairs of the range
      pattern's matches in a name. */
  datatype GroupConfig = GroupConfig(
    search: Option<string -> bool>,
    substring: Option<string>,
    policy: BlockPolicy,
    multiRange: bool,
    rangeMatches: string -> seq<(int, int)>,
    crossDir: bool,
    threshold: Option<int>)

  /** A threshold of 0 is falsy in the source and means "no splitting". */
  predicate Splits(threshold: Option<int>) {
    threshold.Some? && threshold.value != 0
  }

  // ---------------------------------------------------------------- ordering

  /** The sort key order: representative value, then name. */
  predicate KeyLe(p: Pick, q: Pick) {
    Rep(p) < Rep(q) || (Rep(p) == Rep(q) && !StrLt(q.item.name, p.item.name))
  }

  lemma KeyLeTotal(p: Pick, q: Pick)
    ensures KeyLe(p, q) || KeyLe(q, p)
  {
    var a, b := p.item.name, q.item.name;
    if StrLt(a, b) && StrLt(b, a) {
      StrLtTransitive(a, b, a);
      StrLtIrreflexive(a);
    }
  }

  predicate SortedByKey(ps: seq<Pick>) {
    forall i :: 0 < i < |ps| ==> KeyLe(ps[i - 1], ps[i])
  }

  function InsertPick(x: Pick, s: seq<Pick>): (r: seq<Pick>)
    requires SortedByKey(s)
    ensures SortedByKey(r)
    ensures multiset(r) == multiset(s) + multiset{x}
    ensures |r| == |s| + 1
    ensures r[0] == x || (|s| > 0 && r[0] == s[0])
  {
    if s == [] || KeyLe(x, s[0]) then [x] + s
    else
      KeyLeTotal(x, s[0]);
      var t := InsertPick(x, s[1..]);
      assert s == [s[0]] + s[1..];
      [s[0]] + t
  }

  /** `picks.sort(key=lambda x: (x["coverage"][0], x["item"]["name"]))`: a
      stable insertion sort, each pick going before the picks it does not
      follow in key order. */
  function SortPicks(ps: seq<Pick>): (r: seq<Pick>)
    ensures SortedByKey(r)
    ensures multiset(r) == multiset(ps)
    ensures |r| == |ps|
  {
    if ps == [] then []
    else
      assert ps == [ps[0]] + ps[1..];
      InsertPick(ps[0], SortPicks(ps[1..]))
  }

  // --------------------------------------------------------------- splitting

  function Last(s: seq<Pick>): Pick
    requires |s| > 0
  {
    s[|s| - 1]
  }

  /** `runs` are non-empty, every step between consecutive representative
      values inside a run is at most `t`, and every step from the last pick of
      one run to the first of the next exceeds `t`. */
  predicate CutAtGaps(runs: seq<seq<Pick>>, t: int) {
    && (forall i :: 0 <= i < |runs| ==> |runs[i]| > 0)
    && (forall i, j :: 0 <= i < |runs| && 0 < j < |runs[i]| ==>
          Rep(runs[i][j]) - Rep(runs[i][j - 1]) <= t)
    && (forall i :: 0 <= i < |runs| - 1 ==> StepExceeds(runs, i, t))
  }

  /** The step from the last pick of run `i` to the first of run `i + 1`
      exceeds `t`. */
  predicate StepExceeds(runs: seq<seq<Pick>>, i: int, t: int) {
    0 <= i < |runs| - 1 && |runs[i]| > 0 && |runs[i + 1]| > 0 && Rep(runs[i + 1][0]) - Rep(Last(runs[i])) > t
  }

  /** A pick whose step to the next run exceeds `t` starts a run of its own. */
  lemma CutAtGapsNewRun(p: Pick, rest: seq<seq<Pick>>, t: int)
    requires CutAtGaps(rest, t)
    requires |rest| > 0 && Rep(rest[0][0]) - Rep(p) > t
    ensures CutAtGaps([[p]] + rest, t)
  {
    var runs := [[p]] + rest;
    forall i | 0 <= i < |runs| - 1
      ensures StepExceeds(runs, i, t)
    {
      assert runs[i + 1] == rest[i];
      if i > 0 {
        assert runs[i] == rest[i - 1];
        assert StepExceeds(rest, i - 1, t);
      }
    }
  }

  /** A pick within `t` of the next run joins that run. */
  lemma CutAtGapsJoin(p: Pick, rest: seq<seq<Pick>>, t: int)
    requires CutAtGaps(rest, t)
    requires |rest| > 0 && Rep(rest[0][0]) - Rep(p) <= t
    ensures CutAtGaps([[p] + rest[0]] + rest[1..], t)
  {
    var runs := [[p] + rest[0]] + rest[1..];
    forall i, j | 0 <= i < |runs| && 0 < j < |runs[i]|
      ensures Rep(runs[i][j]) - Rep(runs[i][j - 1]) <= t
    {
      if i == 0 {
        if j > 1 { assert runs[0][j] == rest[0][j - 1] && runs[0][j - 1] == rest[0][j - 2]; }
      } else {
        assert runs[i] == rest[i];
      }
    }
    forall i | 0 <= i < |runs| - 1
      ensures StepExceeds(runs, i, t)
    {
      assert runs[i + 1] == rest[i + 1];
      assert StepExceeds(rest, i, t);
      if i > 0 { assert runs[i] == rest[i]; }
      else { assert Last(runs[0]) == Last(rest[0]); }
    }
  }


  /** Cuts `ps` into maximal runs in which every step between consecutive
      representative values is at most `t`; the runs concatenate back to
      `ps`, so the cuts fall exactly where a step exceeds `t`. */
  function SplitRuns(ps: seq<Pick>, t: int): (runs: seq<seq<Pick>>)
    ensures Flatten(runs) == ps
    ensures CutAtGaps(runs, t)
    ensures |ps| > 0 ==> |runs| > 0 && runs[0][0] == ps[0]
  {
    if |ps| == 0 then []
    else if |ps| == 1 then
      assert Flatten([ps]) == ps + Flatten([]);
      [ps]
    else
      var rest := SplitRuns(ps[1..], t);
      assert ps == [ps[0]] + Flatten(rest);
      if Rep(ps[1]) - Rep(ps[0]) > t then
        CutAtGapsNewRun(ps[0], rest, t);
        FlattenNewRun(ps[0], rest);
        [[ps[0]]] + rest
      else
        CutAtGapsJoin(ps[0], rest, t);
        FlattenJoin(ps[0], rest);
        [[ps[0]] + rest[0]] + rest[1..]
  }

  /** Each run of a sorted list is sorted. */
  lemma {:induction false} SplitRunsSorted(ps: seq<Pick>, t: int)
    ensures SortedByKey(ps) ==> forall i :: 0 <= i < |SplitRuns(ps, t)| ==> SortedByKey(SplitRuns(ps, t)[i])
    decreases |ps|
  {
    if |ps| > 1 && SortedByKey(ps) {
      SplitRunsSorted(ps[1..], t);
      var rest := SplitRuns(ps[1..], t);
      var runs := SplitRuns(ps, t);
      if Rep(ps[1]) - Rep(ps[0]) > t {
        assert forall i :: 0 < i < |runs| ==> runs[i] == rest[i - 1];
      } else {
        assert forall i :: 0 < i < |runs| ==> runs[i] == rest[i];
        assert runs[0] == [ps[0]] + rest[0];
      }
    }
  }

  // ------------------------------------------------------------ group making

  function DirGroupId(dir: string, idx: nat): string {
    dir + "__group" + NatToString(idx)
  }

  function CrossGroupId(idx: nat): string {
    "crossdir_" + NatToString(idx)
  }

  /** Group ids of one directory differ exactly when their indices do. */
  lemma DirGroupIdsDistinct(dir: string, i: nat, j: nat)
    ensures DirGroupId(dir, i) == DirGroupId(dir, j) <==> i == j
  {
    var p := dir + "__group";
    if DirGroupId(dir, i) == DirGroupId(dir, j) {
      assert DirGroupId(dir, i)[|p|..] == NatToString(i);
      assert DirGroupId(dir, j)[|p|..] == NatToString(j);
      NatToStringInjective(i, j);
    }
  }

  lemma CrossGroupIdsDistinct(i: nat, j: nat)
    ensures CrossGroupId(i) == CrossGroupId(j) <==> i == j
  {
    var p := "crossdir_";
    if CrossGroupId(i) == CrossGroupId(j) {
      assert CrossGroupId(i)[|p|..] == NatToString(i);
      assert CrossGroupId(j)[|p|..] == NatToString(j);
      NatToStringInjective(i, j);
    }
  }

  /** One group per run, numbered from 0 in run order. */
  function MakeGroups(runs: seq<seq<Pick>>, dir: Option<string>, kind: ArtifactKind): (gs: seq<Group>)
    ensures |gs| == |runs|
    ensures forall i :: 0 <= i < |gs| ==>
              && gs[i].picks == runs[i]
              && gs[i].directory == dir
              && gs[i].kind == kind
              && gs[i].labelText == LabelForPicks(runs[i])
              && gs[i].groupId == (if dir.Some? then DirGroupId(dir.value, i) else CrossGroupId(i))
  {
    seq(|runs|, i requires 0 <= i < |runs| =>
      Group(if dir.Some? then DirGroupId(dir.value, i) else CrossGroupId(i),
            dir, LabelForPicks(runs[i]), kind, runs[i]))
  }

  function PicksOf(gs: seq<Group>): (runs: seq<seq<Pick>>)
    ensures |runs| == |gs|
    ensures forall i :: 0 <= i < |gs| ==> runs[i] == gs[i].picks
  {
    seq(|gs|, i requires 0 <= i < |gs| => gs[i].picks)
  }

  function GroupPicks(gs: seq<Group>): seq<Pick> {
    if gs == [] then [] else gs[0].picks + GroupPicks(gs[1..])
  }

  lemma {:induction false} GroupPicksOfRuns(gs: seq<Group>, runs: seq<seq<Pick>>)
    requires |gs| == |runs|
    requires forall i :: 0 <= i < |gs| ==> gs[i].picks == runs[i]
    ensures GroupPicks(gs) == Flatten(runs)
    decreases |gs|
  {
    if gs != [] {
      GroupPicksOfRuns(gs[1..], runs[1..]);
    }
  }

  lemma {:induction false} GroupPicksAppend(a: seq<Group>, b: seq<Group>)
    ensures GroupPicks(a + b) == GroupPicks(a) + GroupPicks(b)
    decreases |a|
  {
    if a != [] {
      assert (a + b)[1..] == a[1..] + b;
      GroupPicksAppend(a[1..], b);
    } else {
      assert a + b == b;
    }
  }

  /** `build_subgroups_in_dir`: the sorted picks of one directory cut into
      groups `dir__group0`, `dir__group1`, ...; without an active threshold
      the whole list is one group. */
  function BuildSubgroupsInDir(dir: string, ps: seq<Pick>, threshold: Option<int>, kind: ArtifactKind)
    : (gs: seq<Group>)
    ensures !Splits(threshold) ==> |gs| == 1
    ensures ps != [] ==> |gs| > 0
    ensures ps != [] || !Splits(threshold) ==> GroupPicks(gs) == ps
    ensures forall i :: 0 <= i < |gs| ==>
              && gs[i].groupId == DirGroupId(dir, i)
              && gs[i].directory == Some(dir)
              && gs[i].kind == kind
              && gs[i].labelText == LabelForPicks(gs[i].picks)
              && (ps != [] ==> |gs[i].picks| > 0)
              && (SortedByKey(ps) ==> SortedByKey(gs[i].picks))
    ensures Splits(threshold) ==> CutAtGaps(PicksOf(gs), threshold.value)
  {
    var runs := if Splits(threshold) then SplitRuns(ps, threshold.value) else [ps];
    var gs := MakeGroups(runs, Some(dir), kind);
    GroupPicksOfRuns(gs, runs);
    assert PicksOf(gs) == runs;
    SplitRunsSorted(ps, threshold.GetOr(0));
    assert Flatten([ps]) == ps + Flatten([]);
    gs
  }

  /** `build_groups_from_flat`: the pooled, sorted picks cut into groups
      `crossdir_0`, `crossdir_1`, ... with no directory. The source's flat
      entries also carry their directory, but neither the sort key nor the
      label nor the resulting picks read it, so the picks are pooled without it. */
  function BuildGroupsFromFlat(ps: seq<Pick>, threshold: Option<int>, kind: ArtifactKind)
    : (gs: seq<Group>)
    ensures ps == [] <==> gs == []
    ensures !Splits(threshold) && ps != [] ==> |gs| == 1
    ensures GroupPicks(gs) == ps
    ensures forall i :: 0 <= i < |gs| ==>
              && gs[i].groupId == CrossGroupId(i)
              && gs[i].directory == None
              && gs[i].kind == kind
              && gs[i].labelText == LabelForPicks(gs[i].picks)
              && |gs[i].picks| > 0
              && (SortedByKey(ps) ==> SortedByKey(gs[i].picks))
    ensures Splits(threshold) ==> CutAtGaps(PicksOf(gs), threshold.value)
  {
    var runs := if ps == [] then [] else if Splits(threshold) then SplitRuns(ps, threshold.value) else [ps];
    var gs := MakeGroups(runs, None, kind);
    GroupPicksOfRuns(gs, runs);
    assert PicksOf(gs) == runs;
    SplitRunsSorted(ps, threshold.GetOr(0));
    assert Flatten([ps]) == ps + Flatten([]);
    gs
  }

  // ------------------------------------------------------------ group_items

  /** The picks one item contributes: none when the item fails the filter,
      otherwise one per seed of its name, in seed order, pick `k` covering
      seed `k` and, with range expansion on, exactly the matched ranges'
      values besides. */
  function ItemPicks(it: Item, cfg: GroupConfig): (ps: seq<Pick>)
    ensures !ItemPassesFilter(it, cfg.search, cfg.substring) ==> ps == []
    ensures forall k :: 0 <= k < |ps| ==> ps[k].item == it && Ascending(ps[k].coverage)
    ensures ItemPassesFilter(it, cfg.search, cfg.substring) ==>
              var seeds := Seeds(BlockValues(it.name), cfg.policy);
              var pairs := cfg.rangeMatches(it.name);
              && |ps| == |seeds|
              && forall k :: 0 <= k < |ps| ==>
                   && seeds[k] in ps[k].coverage
                   && forall x :: x in ps[k].coverage <==>
                        x == seeds[k] || (cfg.multiRange && exists j :: 0 <= j < |pairs| && InPair(pairs[j], x))
  {
    if !ItemPassesFilter(it, cfg.search, cfg.substring) then []
    else
      var covs := ParseCoverageList(it, cfg.policy, cfg.multiRange, cfg.rangeMatches(it.name));
      seq(|covs|, k requires 0 <= k < |covs| => Pick(it, covs[k]))
  }

  /** The picks of one directory's items, in item order. */
  function DirPicks(items: seq<Item>, cfg: GroupConfig): seq<Pick> {
    if items == [] then [] else ItemPicks(items[0], cfg) + DirPicks(items[1..], cfg)
  }

  /** The pooled picks of all directories, in directory order. */
  function AllPicks(dirs: seq<DirItems>, cfg: GroupConfig): seq<Pick> {
    if dirs == [] then [] else DirPicks(dirs[0].items, cfg) + AllPicks(dirs[1..], cfg)
  }

  /** Each directory's picks, sorted, concatenated in directory order. */
  function SortedPerDir(dirs: seq<DirItems>, cfg: GroupConfig): seq<Pick> {
    if dirs == [] then [] else SortPicks(DirPicks(dirs[0].items, cfg)) + SortedPerDir(dirs[1..], cfg)
  }

  /** The number of directories that yield at least one pick. */
  function NonEmptyDirs(dirs: seq<DirItems>, cfg: GroupConfig): nat {
    if dirs == [] then 0
    else (if DirPicks(dirs[0].items, cfg) == [] then 0 else 1) + NonEmptyDirs(dirs[1..], cfg)
  }

  /** The `n`-th group of directory `dir`: its id, directory, kind and label,
      over a non-empty sorted run of picks. */
  predicate DirGroupAt(g: Group, dir: string, n: nat, kind: ArtifactKind) {
    && g.groupId == DirGroupId(dir, n)
    && g.directory == Some(dir)
    && g.kind == kind
    && g.labelText == LabelForPicks(g.picks)
    && |g.picks| > 0
    && SortedByKey(g.picks)
  }

  /** One directory's groups: its picks sorted and cut, or no group when the
      directory yields no pick. */
  function DirGroups(d: DirItems, cfg: GroupConfig, kind: ArtifactKind): (gs: seq<Group>)
    ensures GroupPicks(gs) == SortPicks(DirPicks(d.items, cfg))
    ensures gs == [] <==> DirPicks(d.items, cfg) == []
    ensures !Splits(cfg.threshold) && DirPicks(d.items, cfg) != [] ==> |gs| == 1
    ensures forall i :: 0 <= i < |gs| ==> DirGroupAt(gs[i], d.dir, i, kind)
    ensures Splits(cfg.threshold) ==> CutAtGaps(PicksOf(gs), cfg.threshold.value)
  {
    var ps := DirPicks(d.items, cfg);
    if ps == [] then []
    else
      var sorted := SortPicks(ps);
      assert |sorted| == |ps|;
      BuildSubgroupsInDir(d.dir, sorted, cfg.threshold, kind)
  }

  /** Per-directory grouping: each directory's picks are sorted and cut on
      their own; a directory without picks yields no group. */
  function GroupPerDir(dirs: seq<DirItems>, cfg: GroupConfig, kind: ArtifactKind): (gs: seq<Group>)
    ensures GroupPicks(gs) == SortedPerDir(dirs, cfg)
    ensures !Splits(cfg.threshold) ==> |gs| == NonEmptyDirs(dirs, cfg)
    decreases |dirs|
  {
    if dirs == [] then []
    else
      var here := DirGroups(dirs[0], cfg, kind);
      var rest := GroupPerDir(dirs[1..], cfg, kind);
      GroupPicksAppend(here, rest);
      here + rest
  }

  lemma GroupPerDirUnfold(dirs: seq<DirItems>, cfg: GroupConfig, kind: ArtifactKind)
    requires |dirs| > 0
    ensures GroupPerDir(dirs, cfg, kind) == DirGroups(dirs[0], cfg, kind) + GroupPerDir(dirs[1..], cfg, kind)
  {
  }

  /** Every per-directory group is a non-empty, sorted run of the picks of a
      directory that yielded picks. */
  lemma GroupPerDirShape(dirs: seq<DirItems>, cfg: GroupConfig, kind: ArtifactKind, i: nat)
    requires i < |GroupPerDir(dirs, cfg, kind)|
    ensures var g := GroupPerDir(dirs, cfg, kind)[i];
      |g.picks| > 0 && SortedByKey(g.picks) && g.kind == kind
  {
    var j, n := GroupSource(dirs, cfg, kind, i);
    assert DirGroupAt(DirGroups(dirs[j], cfg, kind)[n], dirs[j].dir, n, kind);
  }

  /** Every per-directory group is the `n`-th group of some directory that
      yielded picks, and carries that directory, its id `dir__group<n>` and
      the label of its own picks. */
  lemma {:induction false} GroupPerDirOrigin(dirs: seq<DirItems>, cfg: GroupConfig, kind: ArtifactKind, i: nat)
    requires i < |GroupPerDir(dirs, cfg, kind)|
    ensures var g := GroupPerDir(dirs, cfg, kind)[i];
      exists j, n :: 0 <= j < |dirs| && 0 <= n < |DirGroups(dirs[j], cfg, kind)|
        && g == DirGroups(dirs[j], cfg, kind)[n]
        && DirGroupAt(g, dirs[j].dir, n, kind)
        && DirPicks(dirs[j].items, cfg) != []
  {
    var j, n := GroupSource(dirs, cfg, kind, i);
    assert DirGroupAt(DirGroups(dirs[j], cfg, kind)[n], dirs[j].dir, n, kind);
  }

  /** The directory a per-directory group comes from, and its place there. */
  lemma GroupSource(dirs: seq<DirItems>, cfg: GroupConfig, kind: ArtifactKind, i: nat)
    returns (j: nat, n: nat)
    requires i < |GroupPerDir(dirs, cfg, kind)|
    ensures j < |dirs| && n < |DirGroups(dirs[j], cfg, kind)|
    ensures GroupPerDir(dirs, cfg, kind)[i] == DirGroups(dirs[j], cfg, kind)[n]
  {
    var parts := GroupsOfDirs(dirs, cfg, kind);
    GroupPerDirFlatten(dirs, cfg, kind);
    j, n := FlattenIndex(parts, i);
    GroupsOfDirsAt(dirs, cfg, kind, j);
  }

  /** Each directory's groups, in directory order. */
  function GroupsOfDirs(dirs: seq<DirItems>, cfg: GroupConfig, kind: ArtifactKind): seq<seq<Group>> {
    MapSeq((d: DirItems) => DirGroups(d, cfg, kind), dirs)
  }

  lemma GroupsOfDirsAt(dirs: seq<DirItems>, cfg: GroupConfig, kind: ArtifactKind, j: nat)
    requires j < |GroupsOfDirs(dirs, cfg, kind)|
    ensures j < |dirs| && GroupsOfDirs(dirs, cfg, kind)[j] == DirGroups(dirs[j], cfg, kind)
  {
    MapSeqAt((d: DirItems) => DirGroups(d, cfg, kind), dirs, j);
  }

  lemma {:induction false} GroupPerDirFlatten(dirs: seq<DirItems>, cfg: GroupConfig, kind: ArtifactKind)
    ensures GroupPerDir(dirs, cfg, kind) == Flatten(GroupsOfDirs(dirs, cfg, kind))
    decreases |dirs|
  {
    if dirs != [] {
      GroupPerDirFlatten(dirs[1..], cfg, kind);
      GroupPerDirUnfold(dirs, cfg, kind);
      assert GroupsOfDirs(dirs, cfg, kind) == [DirGroups(dirs[0], cfg, kind)] + GroupsOfDirs(dirs[1..], cfg, kind);
      FlattenCons(DirGroups(dirs[0], cfg, kind), GroupsOfDirs(dirs[1..], cfg, kind));
    }
  }

  /** Directory names are distinct, as the keys of the source's mapping are. */
  predicate DistinctDirs(dirs: seq<DirItems>) {
    forall a, b :: 0 <= a < b < |dirs| ==> dirs[a].dir != dirs[b].dir
  }

  /** Under an active threshold, no step inside a per-directory group exceeds
      it, and two neighbouring groups of the same directory are split at a
      step that does. */
  lemma GroupPerDirCuts(dirs: seq<DirItems>, cfg: GroupConfig, kind: ArtifactKind, i: nat)
    requires DistinctDirs(dirs)
    requires Splits(cfg.threshold)
    requires i < |GroupPerDir(dirs, cfg, kind)|
    ensures var gs := GroupPerDir(dirs, cfg, kind);
      && (forall k :: 0 < k < |gs[i].picks| ==>
            Rep(gs[i].picks[k]) - Rep(gs[i].picks[k - 1]) <= cfg.threshold.value)
      && (i + 1 < |gs| && gs[i].directory == gs[i + 1].directory ==>
            StepExceeds(PicksOf(gs), i, cfg.threshold.value))
  {
    var t := cfg.threshold.value;
    var gs := GroupPerDir(dirs, cfg, kind);
    var j, n := GroupSource(dirs, cfg, kind, i);
    WithinDirGroup(dirs[j], cfg, kind, n);
    if i + 1 < |gs| && gs[i].directory == gs[i + 1].directory {
      var parts := GroupsOfDirs(dirs, cfg, kind);
      GroupPerDirFlatten(dirs, cfg, kind);
      var a, b, a2, b2 := FlattenNext(parts, i);
      GroupsOfDirsAt(dirs, cfg, kind, a);
      GroupsOfDirsAt(dirs, cfg, kind, a2);
      var here := DirGroups(dirs[a], cfg, kind);
      assert DirGroupAt(here[b], dirs[a].dir, b, kind);
      assert DirGroupAt(parts[a2][b2], dirs[a2].dir, b2, kind);
      if a2 == a {
        WithinDirGroup(dirs[a], cfg, kind, b);
        assert PicksOf(gs)[i] == PicksOf(here)[b] && PicksOf(gs)[i + 1] == PicksOf(here)[b + 1];
      } else {
        // a later part belongs to another directory
        assert false;
      }
    }
  }

  /** Inside one directory, a group's steps stay within the threshold and the
      step to the directory's next group exceeds it. */
  lemma WithinDirGroup(d: DirItems, cfg: GroupConfig, kind: ArtifactKind, n: nat)
    requires Splits(cfg.threshold)
    requires n < |DirGroups(d, cfg, kind)|
    ensures var gs := DirGroups(d, cfg, kind);
      && (forall k :: 0 < k < |gs[n].picks| ==>
            Rep(gs[n].picks[k]) - Rep(gs[n].picks[k - 1]) <= cfg.threshold.value)
      && (n + 1 < |gs| ==> StepExceeds(PicksOf(gs), n, cfg.threshold.value))
  {
    var gs := DirGroups(d, cfg, kind);
    assert PicksOf(gs)[n] == gs[n].picks;
  }

  /** `group_items`: per-directory or cross-directory grouping of the picks of
      every item that passes the filter. */
  function GroupItems(dirs: seq<DirItems>, cfg: GroupConfig, kind: ArtifactKind): (gs: seq<Group>)
    ensures cfg.crossDir ==> GroupPicks(gs) == SortPicks(AllPicks(dirs, cfg))
    ensures !cfg.crossDir ==> GroupPicks(gs) == SortedPerDir(dirs, cfg)
    ensures cfg.crossDir && !Splits(cfg.threshold) && AllPicks(dirs, cfg) != [] ==> |gs| == 1
    ensures cfg.crossDir ==> forall i :: 0 <= i < |gs| ==>
              && gs[i].groupId == CrossGroupId(i)
              && gs[i].directory == None
              && gs[i].kind == kind
              && gs[i].labelText == LabelForPicks(gs[i].picks)
              && |gs[i].picks| > 0
              && SortedByKey(gs[i].picks)
    ensures cfg.crossDir && Splits(cfg.threshold) ==> CutAtGaps(PicksOf(gs), cfg.threshold.value)
    ensures !cfg.crossDir ==> gs == GroupPerDir(dirs, cfg, kind)
  {
    if cfg.crossDir then BuildGroupsFromFlat(SortPicks(AllPicks(dirs, cfg)), cfg.threshold, kind)
    else GroupPerDir(dirs, cfg, kind)
  }
}

=== FILE: items.dfy ===
/** The records the engine works on: an observed item (file or directory),
    a coverage list, and a pick pairing the two. */
module Items {
  import opened Wrappers
  import opened Text

  /** One observed file or directory, as the collection step hands it over;
      `size` is always 0 for directories. */
  datatype Item = Item(name: string, path: string, size: nat, isDir: bool)

  /** A coverage list. Coverage parsing never yields an empty one, and every
      consumer reads its first element, so non-emptiness is part of the type. */
  type Coverage = s: seq<int> | |s| > 0 witness [0]

  /** One item paired with one of its coverage lists. */
  datatype Pick = Pick(item: Item, coverage: Coverage)

  /** The representative value of a pick: the first element of its coverage. */
  function Rep(p: Pick): int {
    p.coverage[0]
  }

  /** The name filter applied before coverage parsing. The regular-expression
      search is an oracle (`search`, present when a pattern is set); the
      substring filter is modelled directly. An empty pattern or substring
      accepts every name, so it is the same as an absent one. */
  function ItemPassesFilter(it: Item, search: Option<string -> bool>, substring: Option<string>): bool {
    if search.Some? && !search.value(it.name) then false
    else if substring.Some? && !Contains(it.name, substring.value) then false
    else true
  }

  /** An empty substring filter is falsy in the source and is skipped; its
      model, "the name contains the empty string", accepts every name too. */
  lemma EmptySubstringAcceptsAll(it: Item, search: Option<string -> bool>)
    ensures ItemPassesFilter(it, search, Some("")) == ItemPassesFilter(it, search, None)
  {
    assert OccursAt(it.name, "", 0);
  }
}

=== FILE: naming.dfy ===
/** Locating a pick's representative value in its name. Group labels and the
    prefix/suffix borrowed by reconstructed names both rest on this one
    lookup. */
module Naming {
  import opened Wrappers
  import opened Text
  import opened Items

  /** The label of a group whose name holds no locatable number. */
  const NoNumeric: string := "<no-numeric>"
  /** The prefix and suffix used when nothing can be borrowed. */
  const UnknownPrefix: string := "???_"
  const UnknownSuffix: string := ".xxx"

  /** The string the source searches for first, `str(v).zfill(len(str(v)))`.
      Filling to the string's own length adds nothing, so the source's second
      search for the plain `str(v)` looks for the same string again and can
      never succeed where the first failed. */
  function LookupKey(v: int): (k: string)
    ensures k == IntToString(v)
  {
    ZFill(IntToString(v), |IntToString(v)|)
  }

  /** Splits `name` around the first occurrence of `str(v)`. */
  function Locate(name: string, v: int): (r: Option<(string, string)>)
    ensures r.Some? ==> r.value.0 + IntToString(v) + r.value.1 == name
    ensures r.Some? ==> forall j :: 0 <= j < |r.value.0| ==> !OccursAt(name, IntToString(v), j)
    ensures r.None? <==> !Contains(name, IntToString(v))
  {
    var key := LookupKey(v);
    match Find(name, key)
    case Some(i) =>
      assert name[..i] + key + name[i + |key|..] == name by {
        assert name[i..i + |key|] == key;
        assert name == name[..i] + name[i..i + |key|] + name[i + |key|..];
      }
      Some((name[..i], name[i + |key|..]))
    case None => None
  }

  /** `guess_prefix_suffix`: what surrounds the first occurrence of `str(v)`
      in the name, or the placeholder pair when it does not occur. */
  function GuessPrefixSuffix(name: string, v: int): (r: (string, string))
    ensures Contains(name, IntToString(v)) ==>
              && r.0 + IntToString(v) + r.1 == name
              && forall j :: 0 <= j < |r.0| ==> !OccursAt(name, IntToString(v), j)
    ensures !Contains(name, IntToString(v)) ==> r == (UnknownPrefix, UnknownSuffix)
  {
    match Locate(name, v)
    case Some(parts) => parts
    case None => (UnknownPrefix, UnknownSuffix)
  }

  /** When the name holds `str(v)`, the prefix and suffix are exactly what
      lies before and after its first occurrence. */
  lemma GuessSplitsAtFirst(name: string, v: int)
    ensures var key := IntToString(v);
      var r := GuessPrefixSuffix(name, v);
      Contains(name, key) ==>
        && FirstOccurrence(name, key, |r.0|)
        && r.0 == name[..|r.0|]
        && r.1 == name[|r.0| + |key|..]
  {
    var key := IntToString(v);
    var r := GuessPrefixSuffix(name, v);
    if Contains(name, key) {
      var j := |r.0|;
      assert name == r.0 + key + r.1;
      assert name[..j] == r.0;
      assert name[j..j + |key|] == key;
      assert name[j + |key|..] == r.1;
    }
  }

  /** The label of a group (`compute_group_label_for_picks`). Every coverage
      list is non-empty, so the source's scan for the first pick with coverage
      stops at the first pick: the label is the prefix before the first
      occurrence of that pick's value, with a trailing digit run removed, and
      the sentinel when the value does not occur or nothing is left. */
  function LabelForPicks(picks: seq<Pick>): (l: string)
    ensures picks == [] ==> l == NoNumeric
    ensures picks != [] && !Contains(picks[0].item.name, IntToString(Rep(picks[0]))) ==> l == NoNumeric
    ensures picks != [] && Contains(picks[0].item.name, IntToString(Rep(picks[0]))) ==>
              var stripped := StripDigitSuffix(GuessPrefixSuffix(picks[0].item.name, Rep(picks[0])).0);
              l == if stripped == [] then NoNumeric else stripped
  {
    if picks == [] then NoNumeric
    else
      match Locate(picks[0].item.name, Rep(picks[0]))
      case None => NoNumeric
      case Some(parts) =>
        var prefix := StripDigitSuffix(parts.0);
        if prefix == [] then NoNumeric else prefix
  }
}

=== FILE: output.dfy ===
/** Output helpers of the engine: how a missing item is shown
    (`reconstruct`) and how a CSV field is escaped (`csv_escape`). */
module Output {
  import opened Text
  import opened Items
  import opened Naming
  import opened Grouping
  import opened Segments
  import opened Gaps

  // ------------------------------------------------------------ reconstruct

  /** The `--show` modes. */
  datatype ShowMode = Filename | PaddedForm | Number | Significant

  /** `reconstruct`: one missing item as shown. `Significant` keeps the last
      three characters of the padded form, or all of it when it is shorter. */
  function Reconstruct(mi: MissingItem, mode: ShowMode): (r: string)
    ensures mode == Filename ==>
              && |r| == |mi.prefix| + |mi.padded| + |mi.suffix|
              && r[..|mi.prefix|] == mi.prefix
              && r[|mi.prefix|..|mi.prefix| + |mi.padded|] == mi.padded
              && r[|mi.prefix| + |mi.padded|..] == mi.suffix
    ensures mode == PaddedForm ==> r == mi.padded
    ensures mode == Number ==> |r| > 0 && (r[0] == '-' <==> mi.value < 0)
    ensures mode == Significant ==>
              && |r| == (if |mi.padded| <= 3 then |mi.padded| else 3)
              && r == mi.padded[|mi.padded| - |r|..]
  {
    match mode
    case Filename => mi.prefix + mi.padded + mi.suffix
    case PaddedForm => mi.padded
    case Number => IntToString(mi.value)
    case Significant => LastThree(mi.padded)
  }

  /** Python's `s[-3:]`. */
  function LastThree(s: string): string {
    if |s| <= 3 then s else s[|s| - 3..]
  }

  /** The padded form is at least as wide as `str(ed)` and reads back as the
      value: all digits for a value of 0 or more, a `-` and then digits for a
      negative one. */
  lemma PaddedReadsBack(mi: MissingItem, ed: int)
    requires mi.padded == Padded(mi.value, ed)
    ensures var p := Reconstruct(mi, PaddedForm);
      |p| >= |IntToString(ed)| && ReadsAs(p, mi.value)
  {
    if mi.value >= 0 {
      PaddedNonNegative(mi.value, ed);
    } else {
      PaddedNegative(mi.value, ed);
    }
  }

  /** The number form is `str(v)`: the canonical digits of the value (no
      leading zeros), behind a `-` when the value is negative. */
  lemma NumberReadsBack(mi: MissingItem)
    ensures var n := Reconstruct(mi, Number);
      && (mi.value >= 0 ==> Canonical(n) && ParseDecimal(n) == mi.value)
      && (mi.value < 0 ==> n[0] == '-' && Canonical(n[1..]) && ParseDecimal(n[1..]) == -mi.value)
  {
    if mi.value >= 0 {
      ParseNatToString(mi.value);
    } else {
      ParseNatToString(-mi.value);
      assert Reconstruct(mi, Number)[1..] == NatToString(-mi.value);
    }
  }

  lemma Pow10Small(k: nat)
    requires k <= 3
    ensures Pow10(k) <= 1000
  {
    assert Pow10(0) == 1 && Pow10(1) == 10 && Pow10(2) == 100 && Pow10(3) == 1000;
  }

  /** The last three characters of a digit string (all of it when shorter)
      read as its value's last three decimal digits. */
  lemma LastThreeDigits(p: string)
    requires AllDigits(p)
    ensures var sig := LastThree(p);
      && AllDigits(sig)
      && ParseDecimal(sig) < 1000 && (ParseDecimal(p) - ParseDecimal(sig)) % 1000 == 0
  {
    if |p| <= 3 {
      ParseBound(p);
      Pow10Small(|p|);
    } else {
      LastDigits(p, 3);
      Pow10Small(3);
      var q := ParseDecimal(p[..|p| - 3]);
      assert Pow10(3) == 1000;
      assert ParseDecimal(p) - ParseDecimal(p[|p| - 3..]) == q * 1000;
      MultipleMod(q, 1000);
    }
  }

  /** The significant form of a padded value (one reading back as the value,
      as `PaddedReadsBack` shows every padded form does) is at most three
      characters. They are digits reading as the last three decimal digits
      of the value's magnitude, except for a negative value whose padded form
      is three characters or fewer: then it is the whole signed form. */
  lemma SignificantReadsBack(mi: MissingItem)
    requires ReadsAs(mi.padded, mi.value)
    ensures var sig := Reconstruct(mi, Significant);
      && |sig| <= 3
      && (mi.value >= 0 || |mi.padded| > 3 ==>
            && AllDigits(sig)
            && ParseDecimal(sig) < 1000
            && ((if mi.value >= 0 then mi.value else -mi.value) - ParseDecimal(sig)) % 1000 == 0)
      && (mi.value < 0 && |mi.padded| <= 3 ==> sig == mi.padded && ReadsAs(sig, mi.value))
  {
    var p := mi.padded;
    assert Reconstruct(mi, Significant) == LastThree(p);
    if mi.value >= 0 {
      LastThreeDigits(p);
    } else if |p| > 3 {
      SignedSignificant(p);
    }
  }

  /** The last three characters of a signed digit string longer than three
      are digits of its unsigned part. */
  lemma SignedSignificant(p: string)
    requires |p| > 3 && p[0] == '-' && AllDigits(p[1..])
    ensures
      && AllDigits(LastThree(p))
      && ParseDecimal(LastThree(p)) < 1000
      && (ParseDecimal(p[1..]) - ParseDecimal(LastThree(p))) % 1000 == 0
  {
    SignedLastThree(p);
    LastThreeDigits(p[1..]);
  }

  /** Past three characters, the last three of a signed form are those of
      its digits. */
  lemma SignedLastThree(p: string)
    requires |p| > 3
    ensures LastThree(p) == LastThree(p[1..])
  {
    var q := p[1..];
    if |q| == 3 {
      assert p[|p| - 3..] == q;
    } else {
      assert q[|q| - 3..] == p[|p| - 3..];
    }
  }

  /** With the file-name mode, a missing item is shown as the name of a pick
      covering a value nearest to it, with that pick's first occurrence of
      its representative value replaced by the padded missing value; a pick
      whose name does not hold the value gives the placeholder prefix and
      suffix instead. */
  lemma ReconstructFilename(g: Group, cfg: DetectConfig, k: nat, i: nat)
    requires cfg.increment > 0
    requires k < |DetectBreaksInGroup(g, cfg).segments|
    requires i < |DetectBreaksInGroup(g, cfg).segments[k].missingItems|
    ensures var mi := DetectBreaksInGroup(g, cfg).segments[k].missingItems[i];
      var s := Reconstruct(mi, Filename);
      exists q :: BorrowsFrom(g.picks, mi, q) && FilledInto(g.picks[q].item.name, Rep(g.picks[q]), mi.padded, s)
  {
    var mi := DetectBreaksInGroup(g, cfg).segments[k].missingItems[i];
    DetectBorrowsNearest(g, cfg, k, i);
    var q :| BorrowsFrom(g.picks, mi, q);
    FilenameFromGuess(mi, g.picks[q].item.name, Rep(g.picks[q]));
  }

  /** `s` is `name` with the first occurrence of the digits of `rep` replaced
      by `padded`, or `padded` between the placeholder prefix and suffix when
      `name` does not hold those digits. */
  ghost predicate FilledInto(name: string, rep: int, padded: string, s: string) {
    var digits := IntToString(rep);
    && (Contains(name, digits) ==>
          exists j :: FirstOccurrence(name, digits, j)
            && s == name[..j] + padded + name[j + |digits|..])
    && (!Contains(name, digits) ==> s == UnknownPrefix + padded + UnknownSuffix)
  }

  /** The filename of an item whose prefix and suffix were guessed from
      `name` around the digits of `rep`. */
  lemma FilenameFromGuess(mi: MissingItem, name: string, rep: int)
    requires (mi.prefix, mi.suffix) == GuessPrefixSuffix(name, rep)
    ensures FilledInto(name, rep, mi.padded, Reconstruct(mi, Filename))
  {
    GuessSplitsAtFirst(name, rep);
  }

  // ------------------------------------------------------------- csv_escape

  /** Every `"` doubled. */
  function DoubleQuotes(s: string): string {
    if s == [] then [] else (if s[0] == '"' then "\"\"" else [s[0]]) + DoubleQuotes(s[1..])
  }

  /** Every `""` collapsed to `"`: the inverse of `DoubleQuotes`. */
  function UndoubleQuotes(d: string): string {
    if d == [] then []
    else if |d| >= 2 && d[0] == '"' && d[1] == '"' then "\"" + UndoubleQuotes(d[2..])
    else [d[0]] + UndoubleQuotes(d[1..])
  }

  /** Quotes in `d` come in adjacent pairs. */
  predicate QuotesPaired(d: string) {
    if d == [] then true
    else if d[0] == '"' then |d| >= 2 && d[1] == '"' && QuotesPaired(d[2..])
    else QuotesPaired(d[1..])
  }

  /** A field that holds a comma, a quote or a line break. */
  predicate NeedsQuoting(s: string) {
    ',' in s || '"' in s || '\n' in s || '\r' in s
  }

  lemma {:induction false} UndoubleDouble(s: string)
    ensures UndoubleQuotes(DoubleQuotes(s)) == s
    decreases |s|
  {
    if s != [] {
      UndoubleDouble(s[1..]);
      var rest := DoubleQuotes(s[1..]);
      if s[0] == '"' {
        assert DoubleQuotes(s)[2..] == rest;
      } else {
        assert DoubleQuotes(s)[1..] == rest;
      }
    }
  }

  lemma {:induction false} DoubledPaired(s: string)
    ensures QuotesPaired(DoubleQuotes(s))
    decreases |s|
  {
    if s != [] {
      DoubledPaired(s[1..]);
      var rest := DoubleQuotes(s[1..]);
      if s[0] == '"' {
        assert DoubleQuotes(s)[2..] == rest;
      } else {
        assert DoubleQuotes(s)[1..] == rest;
      }
    }
  }

  lemma {:induction false} DoubledChars(s: string)
    ensures forall c :: c in DoubleQuotes(s) <==> c in s
    ensures '"' !in s ==> DoubleQuotes(s) == s
    decreases |s|
  {
    if s != [] {
      DoubledChars(s[1..]);
      assert forall c :: c in s <==> c == s[0] || c in s[1..] by {
        assert s == [s[0]] + s[1..];
      }
    }
  }

  lemma DoubleQuotesFacts(s: string)
    ensures UndoubleQuotes(DoubleQuotes(s)) == s
    ensures QuotesPaired(DoubleQuotes(s))
    ensures forall c :: c in DoubleQuotes(s) <==> c in s
    ensures '"' !in s ==> DoubleQuotes(s) == s
  {
    UndoubleDouble(s);
    DoubledPaired(s);
    DoubledChars(s);
  }

  /** `csv_escape`: quotes doubled, and the whole field wrapped in quotes
      when it then holds a comma, a quote or a line break. */
  function CsvEscape(s: string): (f: string)
    ensures NeedsQuoting(s) ==> |f| >= 2 && f[0] == '"' && f[|f| - 1] == '"'
    ensures !NeedsQuoting(s) ==> f == s
  {
    DoubleQuotesFacts(s);
    var d := DoubleQuotes(s);
    if NeedsQuoting(d) then "\"" + d + "\"" else d
  }

  /** Reads one field back: a quoted field loses its quotes and has its
      doubled quotes collapsed; any other field is taken as it is. */
  function CsvUnescape(f: string): string {
    if |f| >= 2 && f[0] == '"' && f[|f| - 1] == '"' then UndoubleQuotes(f[1..|f| - 1]) else f
  }

  /** Reading an escaped field gives the original text back. */
  lemma CsvRoundTrip(s: string)
    ensures CsvUnescape(CsvEscape(s)) == s
  {
    DoubleQuotesFacts(s);
    var d := DoubleQuotes(s);
    if NeedsQuoting(s) {
      assert CsvEscape(s)[1..|CsvEscape(s)| - 1] == d;
    }
  }

  /** A field as section 2 of RFC 4180 allows it: either free of commas,
      quotes and line breaks, or enclosed in quotes with every inner quote
      doubled. */
  predicate Rfc4180Field(f: string) {
    !NeedsQuoting(f) || (|f| >= 2 && f[0] == '"' && f[|f| - 1] == '"' && QuotesPaired(f[1..|f| - 1]))
  }

  lemma CsvEscapeWellFormed(s: string)
    ensures Rfc4180Field(CsvEscape(s))
  {
    DoubleQuotesFacts(s);
    var d := DoubleQuotes(s);
    if NeedsQuoting(s) {
      assert CsvEscape(s)[1..|CsvEscape(s)| - 1] == d;
    }
  }
}

=== FILE: segments.dfy ===
/** Boundary arithmetic of the gap detector: the expected range, the planned
    leading / internal / trailing spans, and the missing values of a span
    stepped by the increment. */
module Segments {
  import opened Wrappers
  import opened Text
  import opened Coverage

  datatype BoundaryKind = Leading | Internal | Trailing

  function KindName(k: BoundaryKind): string {
    match k
    case Leading => "leading"
    case Internal => "internal"
    case Trailing => "trailing"
  }

  const BoundaryNote: string := " (possible boundary)"

  /** One missing value: its padded form, the borrowed prefix and suffix, and
      the reason text. */
  datatype MissingItem = MissingItem(value: int, padded: string, prefix: string, suffix: string, reason: string)

  datatype Segment = Segment(startValue: int, endValue: int, count: nat, kind: BoundaryKind,
                             missingItems: seq<MissingItem>)

  /** A modulus of 0 is falsy in the source and means "no modulus". */
  predicate ModActive(m: Option<int>) {
    m.Some? && m.value != 0
  }

  /** Python's `a // b`, which rounds toward negative infinity. */
  function FloorDiv(a: int, b: int): (q: int)
    requires b != 0
    ensures b > 0 ==> b * q <= a < b * q + b
    ensures b < 0 ==> b * q >= a > b * q + b
  {
    if b > 0 then a / b else (-a) / (-b)
  }

  lemma MultipleMod(q: int, m: int)
    ensures m > 0 ==> (q * m) % m == 0
  {
    if m <= 0 { return; }
    var r := (q * m) % m;
    var d := (q * m) / m;
    assert q * m == d * m + r;
    assert (q - d) * m == r;
    assert q - d >= 1 ==> (q - d) * m >= m;
    assert q - d <= -1 ==> (q - d) * m <= -m;
  }

  /** The first expected value: the explicit start, or else the smallest
      observed value, floored to a multiple of an active modulus. */
  function SeqStart(actualMin: int, startNum: Option<int>, mod: Option<int>): (s: int)
    ensures startNum.Some? ==> s == startNum.value
    ensures startNum.None? && !ModActive(mod) ==> s == actualMin
    ensures startNum.None? && ModActive(mod) && mod.value > 0 ==>
              s <= actualMin < s + mod.value && s % mod.value == 0
  {
    match startNum
    case Some(s) => s
    case None =>
      if ModActive(mod) then
        var m := mod.value;
        var q := FloorDiv(actualMin, m);
        MultipleMod(q, m);
        q * m
      else actualMin
  }

  /** The last expected value: the explicit end, or else the largest
      observed value, raised to one below the next multiple of an active
      modulus. */
  function SeqEnd(actualMax: int, endNum: Option<int>, mod: Option<int>): (e: int)
    ensures endNum.Some? ==> e == endNum.value
    ensures endNum.None? && !ModActive(mod) ==> e == actualMax
    ensures endNum.None? && ModActive(mod) && mod.value > 0 ==>
              actualMax <= e < actualMax + mod.value && (e + 1) % mod.value == 0
  {
    match endNum
    case Some(e) => e
    case None =>
      if ModActive(mod) then
        var m := mod.value;
        var q := FloorDiv(actualMax, m);
        MultipleMod(q + 1, m);
        (q + 1) * m - 1
      else actualMax
  }

  /** The observed values `{105, 110}` with modulus 100 span 100 to 199. */
  lemma ModulusExample()
    ensures SeqStart(105, None, Some(100)) == 100
    ensures SeqEnd(110, None, Some(100)) == 199
  {
  }

  /** A planned missing run `[st, ed]`, before its values are stepped out. */
  datatype Span = Span(st: int, ed: int, kind: BoundaryKind)

  /** No observed value lies inside the span. */
  predicate Avoids(sp: Span, obs: seq<int>) {
    forall i :: 0 <= i < |obs| ==> !(sp.st <= obs[i] <= sp.ed)
  }

  predicate SpansOrdered(sps: seq<Span>) {
    forall i, j :: 0 <= i < j < |sps| ==> sps[i].ed < sps[j].st
  }

  lemma SpansOrderedAppend(a: seq<Span>, b: seq<Span>)
    requires SpansOrdered(a) && SpansOrdered(b)
    requires forall i, j :: 0 <= i < |a| && 0 <= j < |b| ==> a[i].ed < b[j].st
    ensures SpansOrdered(a + b)
  {
    var c := a + b;
    forall i, j | 0 <= i < j < |c| ensures c[i].ed < c[j].st {
      if j < |a| {
        assert c[i] == a[i] && c[j] == a[j];
      } else if i >= |a| {
        assert c[i] == b[i - |a|] && c[j] == b[j - |a|];
      } else {
        assert c[i] == a[i] && c[j] == b[j - |a|];
      }
    }
  }

  /** The internal spans: for each adjacent pair of observed values more
      than `inc` apart, the run from `cur + inc` to `next - 1`. */
  function InternalSpans(obs: seq<int>, inc: int): (sps: seq<Span>)
    requires Ascending(obs) && inc > 0
    ensures SpansOrdered(sps)
    ensures forall k :: 0 <= k < |sps| ==> sps[k].kind == Internal && sps[k].st <= sps[k].ed
    ensures |obs| > 0 ==> forall k :: 0 <= k < |sps| ==> obs[0] < sps[k].st && sps[k].ed < obs[|obs| - 1]
    decreases |obs|
  {
    if |obs| < 2 then []
    else
      var rest := InternalSpans(obs[1..], inc);
      InternalSpansStep(obs, inc, rest);
      if obs[1] - obs[0] > inc then [Span(obs[0] + inc, obs[1] - 1, Internal)] + rest else rest
  }

  lemma InternalSpansStep(obs: seq<int>, inc: int, rest: seq<Span>)
    requires Ascending(obs) && inc > 0 && |obs| >= 2
    requires SpansOrdered(rest)
    requires forall k :: 0 <= k < |rest| ==> rest[k].kind == Internal && rest[k].st <= rest[k].ed
    requires forall k :: 0 <= k < |rest| ==> obs[1] < rest[k].st && rest[k].ed < obs[|obs| - 1]
    ensures var sps := if obs[1] - obs[0] > inc then [Span(obs[0] + inc, obs[1] - 1, Internal)] + rest else rest;
      && SpansOrdered(sps)
      && (forall k :: 0 <= k < |sps| ==> sps[k].kind == Internal && sps[k].st <= sps[k].ed)
      && (forall k :: 0 <= k < |sps| ==> obs[0] < sps[k].st && sps[k].ed < obs[|obs| - 1])
  {
    assert obs[0] < obs[1] <= obs[|obs| - 1];
    if obs[1] - obs[0] > inc {
      var head := [Span(obs[0] + inc, obs[1] - 1, Internal)];
      SpansOrderedAppend(head, rest);
      var sps := head + rest;
      assert forall k :: 1 <= k < |sps| ==> sps[k] == rest[k - 1];
    }
  }

  /** No internal span holds an observed value. */
  lemma {:induction false} InternalSpansAvoid(obs: seq<int>, inc: int)
    requires Ascending(obs) && inc > 0
    ensures forall k :: 0 <= k < |InternalSpans(obs, inc)| ==> Avoids(InternalSpans(obs, inc)[k], obs)
    decreases |obs|
  {
    if |obs| >= 2 {
      var sps := InternalSpans(obs, inc);
      var rest := InternalSpans(obs[1..], inc);
      InternalSpansAvoid(obs[1..], inc);
      forall k | 0 <= k < |rest| ensures Avoids(rest[k], obs) {
        forall i | 0 <= i < |obs| ensures !(rest[k].st <= obs[i] <= rest[k].ed) {
          if i > 0 {
            assert obs[i] == obs[1..][i - 1];
          }
        }
      }
      if obs[1] - obs[0] > inc {
        var sp := Span(obs[0] + inc, obs[1] - 1, Internal);
        forall i | 0 <= i < |obs| ensures !(sp.st <= obs[i] <= sp.ed) {
          if i > 1 {
            assert obs[1] < obs[i];
          }
        }
        assert forall k :: 1 <= k < |sps| ==> sps[k] == rest[k - 1];
      }
    }
  }

  /** Adjacent observed values more than `inc` apart yield the internal span
      from `obs[i] + inc` to `obs[i + 1] - 1`. */
  lemma {:induction false} InternalSpanPresent(obs: seq<int>, inc: int, i: nat)
    requires Ascending(obs) && inc > 0
    requires i + 1 < |obs| && obs[i + 1] - obs[i] > inc
    ensures Span(obs[i] + inc, obs[i + 1] - 1, Internal) in InternalSpans(obs, inc)
    decreases i
  {
    var rest := InternalSpans(obs[1..], inc);
    var sps := InternalSpans(obs, inc);
    var head := Span(obs[0] + inc, obs[1] - 1, Internal);
    assert sps == if obs[1] - obs[0] > inc then [head] + rest else rest;
    if i == 0 {
      assert sps[0] == head;
    } else {
      AscendingTail(obs);
      var tail := obs[1..];
      assert tail[i - 1] == obs[i] && tail[i] == obs[i + 1];
      InternalSpanPresent(tail, inc, i - 1);
      assert Span(obs[i] + inc, obs[i + 1] - 1, Internal) in rest;
    }
  }

  /** A value strictly inside the observed range and not observed sits between
      two adjacent observed values. */
  lemma {:induction false} Bracket(obs: seq<int>, x: int) returns (i: nat)
    requires Ascending(obs) && |obs| > 0
    requires obs[0] < x < obs[|obs| - 1] && x !in obs
    ensures i + 1 < |obs| && obs[i] < x < obs[i + 1]
    decreases |obs|
  {
    if x < obs[1] {
      i := 0;
    } else {
      assert obs[1] in obs;
      assert obs[|obs| - 1] == obs[1..][|obs[1..]| - 1];
      assert x !in obs[1..] by {
        assert forall y :: y in obs[1..] ==> y in obs;
      }
      AscendingTail(obs);
      var j := Bracket(obs[1..], x);
      i := j + 1;
      assert obs[1..][j] == obs[i] && obs[1..][j + 1] == obs[i + 1];
    }
  }

  function LeadSpans(obs: seq<int>, start: int, inc: int): seq<Span>
    requires |obs| > 0
  {
    if start < obs[0] then [Span(start, obs[0] - inc, Leading)] else []
  }

  function TrailSpans(obs: seq<int>, end: int, inc: int): seq<Span>
    requires |obs| > 0
  {
    if end > obs[|obs| - 1] then [Span(obs[|obs| - 1] + inc, end, Trailing)] else []
  }

  /** All spans of a group, in emission order: leading, internal, trailing. */
  function PlanSpans(obs: seq<int>, start: int, end: int, inc: int): seq<Span>
    requires Ascending(obs) && |obs| > 0 && inc > 0
  {
    LeadSpans(obs, start, inc) + InternalSpans(obs, inc) + TrailSpans(obs, end, inc)
  }

  lemma ObservedBounds(obs: seq<int>)
    requires Ascending(obs) && |obs| > 0
    ensures forall i :: 0 <= i < |obs| ==> obs[0] <= obs[i] <= obs[|obs| - 1]
  {
  }

  /** The planned spans are in ascending order. */
  lemma PlanSpansOrdered(obs: seq<int>, start: int, end: int, inc: int)
    requires Ascending(obs) && |obs| > 0 && inc > 0
    ensures SpansOrdered(PlanSpans(obs, start, end, inc))
  {
    var lead := LeadSpans(obs, start, inc);
    var mid := InternalSpans(obs, inc);
    var trail := TrailSpans(obs, end, inc);
    ObservedBounds(obs);
    SpansOrderedAppend(lead, mid);
    SpansOrderedAppend(lead + mid, trail);
  }

  /** No planned span holds an observed value. */
  lemma PlanSpansAvoid(obs: seq<int>, start: int, end: int, inc: int)
    requires Ascending(obs) && |obs| > 0 && inc > 0
    ensures forall k :: 0 <= k < |PlanSpans(obs, start, end, inc)| ==> Avoids(PlanSpans(obs, start, end, inc)[k], obs)
  {
    var lead := LeadSpans(obs, start, inc);
    var mid := InternalSpans(obs, inc);
    var trail := TrailSpans(obs, end, inc);
    ObservedBounds(obs);
    InternalSpansAvoid(obs, inc);
    var sps := lead + mid + trail;
    forall k | 0 <= k < |sps| ensures Avoids(sps[k], obs) {
      if k < |lead| {
        assert sps[k] == lead[k];
      } else if k < |lead| + |mid| {
        assert sps[k] == mid[k - |lead|];
      } else {
        assert sps[k] == trail[k - |lead| - |mid|];
      }
    }
  }

  /** Where each kind of planned span lies: a leading span starts at `start`
      and ends below the smallest observed value, an internal one lies
      strictly inside the observed range, a trailing one starts above the
      largest observed value and ends at `end`. */
  lemma PlanSpansKinds(obs: seq<int>, start: int, end: int, inc: int)
    requires Ascending(obs) && |obs| > 0 && inc > 0
    ensures var sps := PlanSpans(obs, start, end, inc);
      forall k :: 0 <= k < |sps| ==>
        && (sps[k].kind == Leading ==> sps[k].ed < obs[0] && sps[k].st == start)
        && (sps[k].kind == Internal ==> obs[0] < sps[k].st <= sps[k].ed < obs[|obs| - 1])
        && (sps[k].kind == Trailing ==> obs[|obs| - 1] < sps[k].st && sps[k].ed == end)
  {
    var lead := LeadSpans(obs, start, inc);
    var mid := InternalSpans(obs, inc);
    var trail := TrailSpans(obs, end, inc);
    var sps := lead + mid + trail;
    forall k | 0 <= k < |sps|
      ensures && (sps[k].kind == Leading ==> sps[k].ed < obs[0] && sps[k].st == start)
              && (sps[k].kind == Internal ==> obs[0] < sps[k].st <= sps[k].ed < obs[|obs| - 1])
              && (sps[k].kind == Trailing ==> obs[|obs| - 1] < sps[k].st && sps[k].ed == end)
    {
      if k < |lead| {
        assert sps[k] == lead[k];
      } else if k < |lead| + |mid| {
        assert sps[k] == mid[k - |lead|];
      } else {
        assert sps[k] == trail[k - |lead| - |mid|];
      }
    }
  }

  /** The values `st, st + inc, ...` up to `ed`. */
  function Steps(st: int, ed: int, inc: int): (vs: seq<int>)
    requires inc > 0
    ensures forall i :: 0 <= i < |vs| ==> vs[i] == st + i * inc
    ensures forall i :: 0 <= i < |vs| ==> st <= vs[i] <= ed
    ensures ed < st + |vs| * inc
    ensures Ascending(vs)
    decreases if ed < st then 0 else ed - st + 1
  {
    if ed < st then []
    else
      var rest := Steps(st + inc, ed, inc);
      StepsCons(st, ed, inc, rest);
      [st] + rest
  }

  lemma MulSucc(a: int, b: int)
    ensures (a + 1) * b == a * b + b
  {
  }

  lemma StepsCons(st: int, ed: int, inc: int, rest: seq<int>)
    requires inc > 0 && st <= ed
    requires forall i :: 0 <= i < |rest| ==> rest[i] == st + inc + i * inc
    requires forall i :: 0 <= i < |rest| ==> st + inc <= rest[i] <= ed
    requires ed < st + inc + |rest| * inc
    requires Ascending(rest)
    ensures var vs := [st] + rest;
      && (forall i :: 0 <= i < |vs| ==> vs[i] == st + i * inc)
      && (forall i :: 0 <= i < |vs| ==> st <= vs[i] <= ed)
      && ed < st + |vs| * inc
      && Ascending(vs)
  {
    var vs := [st] + rest;
    forall i | 1 <= i < |vs| ensures vs[i] == st + i * inc {
      MulSucc(i - 1, inc);
    }
    MulSucc(|rest|, inc);
    assert forall y :: y in rest ==> st < y;
    AscendingCons(st, rest);
  }

  /** The source's stepping loop, `v = st; while v <= ed: ...; v += inc`,
      run for at most `fuel` rounds: the values it appends, or `None` when
      the rounds run out before `v` passes `ed`. */
  function StepLoop(v: int, ed: int, inc: int, fuel: nat): (r: Option<seq<int>>)
    ensures r.Some? ==> |r.value| <= fuel && SteppedFrom(r.value, v, ed, inc)
    ensures r.None? ==> forall i :: 0 <= i <= fuel ==> v + i * inc <= ed
    decreases fuel
  {
    if v > ed then
      assert SteppedFrom([], v, ed, inc);
      Some([])
    else if fuel == 0 then None
    else
      match StepLoop(v + inc, ed, inc, fuel - 1)
      case None =>
        StepStaysBelow(v, ed, inc, fuel);
        None
      case Some(rest) =>
        SteppedCons(rest, v, ed, inc);
        Some([v] + rest)
  }

  /** `vs` is what the loop appends from `v` before passing `ed`: the values
      `v, v + inc, ...`, each at most `ed`, with the next one above `ed`. */
  predicate SteppedFrom(vs: seq<int>, v: int, ed: int, inc: int) {
    && (forall i :: 0 <= i < |vs| ==> vs[i] == v + i * inc && vs[i] <= ed)
    && v + |vs| * inc > ed
  }

  lemma SteppedCons(rest: seq<int>, v: int, ed: int, inc: int)
    requires v <= ed && SteppedFrom(rest, v + inc, ed, inc)
    ensures SteppedFrom([v] + rest, v, ed, inc)
  {
    var vs := [v] + rest;
    forall i | 0 <= i < |vs| ensures vs[i] == v + i * inc && vs[i] <= ed {
      if i > 0 {
        assert vs[i] == rest[i - 1];
        MulSucc(i - 1, inc);
      }
    }
    MulSucc(|rest|, inc);
  }

  lemma StepStaysBelow(v: int, ed: int, inc: int, fuel: nat)
    requires v <= ed && fuel > 0
    requires forall i :: 0 <= i <= fuel - 1 ==> (v + inc) + i * inc <= ed
    ensures forall i :: 0 <= i <= fuel ==> v + i * inc <= ed
  {
    forall i | 0 <= i <= fuel ensures v + i * inc <= ed {
      if i > 0 {
        assert (v + inc) + (i - 1) * inc <= ed;
        MulSucc(i - 1, inc);
      }
    }
  }

  /** With a positive increment the loop ends after at most `ed - st + 1`
      rounds, having appended exactly `Steps(st, ed, inc)`. */
  lemma {:induction false} StepLoopFinishes(st: int, ed: int, inc: int, fuel: nat)
    requires inc > 0 && fuel > ed - st
    ensures StepLoop(st, ed, inc, fuel) == Some(Steps(st, ed, inc))
    decreases fuel
  {
    if st <= ed {
      StepLoopFinishes(st + inc, ed, inc, fuel - 1);
    }
  }

  /** With an increment of 0 or less and `st <= ed`, `v` never passes `ed`:
      no number of rounds ends the loop. */
  lemma {:induction false} StepLoopNeverEnds(st: int, ed: int, inc: int, fuel: nat)
    requires inc <= 0 && st <= ed
    ensures StepLoop(st, ed, inc, fuel) == None
    decreases fuel
  {
    if fuel > 0 {
      StepLoopNeverEnds(st + inc, ed, inc, fuel - 1);
    }
  }

  /** With an increment of 0 or less, any two distinct adjacent observed
      values pass the internal-gap test, and stepping the run between them
      never ends. */
  lemma NonPositiveIncrementHangs(obs: seq<int>, inc: int, fuel: nat)
    requires Ascending(obs) && |obs| >= 2 && inc <= 0
    ensures obs[1] - obs[0] > inc
    ensures StepLoop(obs[0] + inc, obs[1] - 1, inc, fuel) == None
  {
    StepLoopNeverEnds(obs[0] + inc, obs[1] - 1, inc, fuel);
  }

  /** Python's `str(v).zfill(len(str(ed)))`. */
  function Padded(v: int, ed: int): string {
    ZFill(IntToString(v), |IntToString(ed)|)
  }

  /** For a non-negative value the padded form is `str(v)` behind enough
      zeros to reach the width of `str(ed)`, and it still reads as `v`. */
  lemma PaddedNonNegative(v: nat, ed: int)
    ensures var p := Padded(v, ed);
      && |p| == (if |NatToString(v)| >= |IntToString(ed)| then |NatToString(v)| else |IntToString(ed)|)
      && p == Zeros(|p| - |NatToString(v)|) + NatToString(v)
      && AllDigits(p)
      && ParseDecimal(p) == v
  {
    var s := NatToString(v);
    var w := |IntToString(ed)|;
    var p := ZFill(s, w);
    assert p == Padded(v, ed);
    ParseNatToString(v);
    assert IsDigit(s[0]);
    if |s| >= w {
      assert Zeros(0) + s == s;
      ParseLeadingZeros(0, s);
    } else {
      assert p == Zeros(w - |s|) + s;
      ParseLeadingZeros(w - |s|, s);
    }
  }

  /** For a negative value the padded form is the sign, then enough zeros
      to reach the width of `str(ed)`, then the digits of `-v`, which read
      back as `-v`. */
  lemma PaddedNegative(v: int, ed: int)
    requires v < 0
    ensures var p := Padded(v, ed);
      && |p| >= |IntToString(ed)| && |p| >= 2
      && p[0] == '-'
      && AllDigits(p[1..])
      && ParseDecimal(p[1..]) == -v
    ensures var p := Padded(v, ed);
      && |p| == (if |IntToString(v)| >= |IntToString(ed)| then |IntToString(v)| else |IntToString(ed)|)
      && p == ['-'] + (Zeros(|p| - |IntToString(v)|) + IntToString(v)[1..])
  {
    var k, d := PaddedNegativeShape(v, ed);
    ParseLeadingZeros(k, d);
    var p := Padded(v, ed);
    assert p[1..] == Zeros(k) + d;
  }

  /** The sign, then `k` zeros, then the digits `d` of `-v`. */
  lemma PaddedNegativeShape(v: int, ed: int) returns (k: nat, d: string)
    requires v < 0
    ensures Padded(v, ed) == ['-'] + (Zeros(k) + d)
    ensures 1 + k + |d| >= |IntToString(ed)| && |d| > 0
    ensures AllDigits(d) && ParseDecimal(d) == -v
    ensures IntToString(v) == ['-'] + d
    ensures k == (if 1 + |d| >= |IntToString(ed)| then 0 else |IntToString(ed)| - 1 - |d|)
  {
    d := NatToString(-v);
    ParseNatToString(-v);
    var w := |IntToString(ed)|;
    k := if 1 + |d| >= w then 0 else w - 1 - |d|;
    assert IntToString(v) == "-" + d;
    SignedZFill(d, w);
  }

  /** `("-" + d).zfill(w)` puts the zeros between the sign and the digits. */
  lemma SignedZFill(d: string, w: int)
    ensures var k := if 1 + |d| >= w then 0 else w - 1 - |d|;
      ZFill("-" + d, w) == "-" + (Zeros(k) + d)
  {
    var s := "-" + d;
    assert s[0] == '-' && s[1..] == d;
    if 1 + |d| >= w {
      assert Zeros(0) + d == d;
    }
  }

  /** The reason text: the boundary kind, annotated only for a leading or
      trailing run under an active modulus when explanations are on. */
  function Reason(kind: BoundaryKind, explain: bool, mod: Option<int>): (r: string)
    ensures r == KindName(kind) || r == KindName(kind) + BoundaryNote
    ensures r == KindName(kind) + BoundaryNote <==> explain && kind != Internal && ModActive(mod)
  {
    if explain && (kind == Leading || kind == Trailing) && ModActive(mod) then KindName(kind) + BoundaryNote
    else KindName(kind)
  }

  function ItemValues(items: seq<MissingItem>): (vs: seq<int>)
    ensures |vs| == |items|
    ensures forall i :: 0 <= i < |items| ==> vs[i] == items[i].value
  {
    seq(|items|, i requires 0 <= i < |items| => items[i].value)
  }

  /** `build_missing_segment`: the values `st, st + inc, ...` up to `ed`, each
      padded to the width of `ed`; empty (and later dropped) when `ed < st`.
      Prefix and suffix are filled in afterwards. */
  function BuildMissingSegment(st: int, ed: int, kind: BoundaryKind, explain: bool, mod: Option<int>, inc: int)
    : (seg: Segment)
    requires inc > 0
    ensures seg.startValue == st && seg.endValue == ed && seg.kind == kind
    ensures seg.count == |seg.missingItems|
    ensures seg.count == 0 <==> ed < st
    ensures ed < st + seg.count * inc
    ensures forall i :: 0 <= i < seg.count ==>
              && seg.missingItems[i].value == st + i * inc
              && st <= seg.missingItems[i].value <= ed
              && seg.missingItems[i].padded == Padded(seg.missingItems[i].value, ed)
              && seg.missingItems[i].reason == Reason(kind, explain, mod)
    ensures Ascending(ItemValues(seg.missingItems))
  {
    if ed < st then Segment(st, ed, 0, kind, [])
    else
      var vs := Steps(st, ed, inc);
      var items := seq(|vs|, i requires 0 <= i < |vs| =>
        MissingItem(vs[i], Padded(vs[i], ed), "", "", Reason(kind, explain, mod)));
      assert ItemValues(items) == vs;
      Segment(st, ed, |items|, kind, items)
  }

  /** The values of a built segment are exactly what the source's stepping
      loop appends, and the loop ends within `ed - st + 1` rounds. */
  lemma BuildMissingSegmentIsLoop(st: int, ed: int, kind: BoundaryKind, explain: bool, mod: Option<int>, inc: int)
    requires inc > 0
    ensures StepLoop(st, ed, inc, if ed < st then 0 else ed - st + 1)
            == Some(ItemValues(BuildMissingSegment(st, ed, kind, explain, mod, inc).missingItems))
  {
    var fuel: nat := if ed < st then 0 else ed - st + 1;
    StepLoopFinishes(st, ed, inc, fuel);
    var seg := BuildMissingSegment(st, ed, kind, explain, mod, inc);
    if st <= ed {
      var vs := Steps(st, ed, inc);
      assert seg.missingItems == seq(|vs|, i requires 0 <= i < |vs| =>
        MissingItem(vs[i], Padded(vs[i], ed), "", "", Reason(kind, explain, mod)));
      assert ItemValues(seg.missingItems) == vs;
    }
  }
}

=== FILE: seqs.dfy ===
/** Generic helpers on sequences of sequences: concatenation, mapping, and
    where an element of a concatenation comes from. */
module Seqs {
  /** The concatenation of `parts`, in order. */
  function Flatten<T>(parts: seq<seq<T>>): seq<T> {
    if parts == [] then [] else parts[0] + Flatten(parts[1..])
  }

  /** `f` applied to every element, in order. */
  function MapSeq<A, B>(f: A -> B, xs: seq<A>): seq<B> {
    if xs == [] then [] else [f(xs[0])] + MapSeq(f, xs[1..])
  }

  lemma {:induction false} MapSeqAt<A, B>(f: A -> B, xs: seq<A>, j: nat)
    requires j < |MapSeq(f, xs)|
    ensures j < |xs| && MapSeq(f, xs)[j] == f(xs[j])
    decreases |xs|
  {
    if j > 0 {
      MapSeqAt(f, xs[1..], j - 1);
    }
  }

  /** Element `n` of part `j` occurs in the concatenation before position `i`. */
  ghost predicate PlacedBefore<T>(parts: seq<seq<T>>, i: nat, j: nat, n: nat)
    requires j < |parts| && n < |parts[j]|
  {
    exists i' :: 0 <= i' < i && i' < |Flatten(parts)| && Flatten(parts)[i'] == parts[j][n]
  }

  /** Every element of a concatenation sits at some place `n` of some part
      `j`, and every element of an earlier part sits at an earlier position. */
  lemma {:induction false} FlattenIndex<T>(parts: seq<seq<T>>, i: nat) returns (j: nat, n: nat)
    requires i < |Flatten(parts)|
    ensures j < |parts| && n < |parts[j]| && Flatten(parts)[i] == parts[j][n]
    ensures forall j', n' :: 0 <= j' < j && 0 <= n' < |parts[j']| ==> PlacedBefore(parts, i, j', n')
    decreases |parts|
  {
    var rest := Flatten(parts[1..]);
    assert Flatten(parts) == parts[0] + rest;
    if i < |parts[0]| {
      j, n := 0, i;
    } else {
      var a, b := FlattenIndex(parts[1..], i - |parts[0]|);
      j, n := a + 1, b;
      assert parts[1..][a] == parts[j];
      forall j', n' | 0 <= j' < j && 0 <= n' < |parts[j']|
        ensures PlacedBefore(parts, i, j', n')
      {
        if j' == 0 {
          assert n' < |parts[0]| <= i;
          assert Flatten(parts)[n'] == parts[j'][n'];
        } else {
          assert parts[1..][j' - 1] == parts[j'];
          assert 0 <= j' - 1 < a && 0 <= n' < |parts[1..][j' - 1]|;
          assert PlacedBefore(parts[1..], i - |parts[0]|, j' - 1, n');
          var x := parts[1..][j' - 1][n'];
          var i'' :| 0 <= i'' < i - |parts[0]| && i'' < |rest| && rest[i''] == x;
          var w := |parts[0]| + i'';
          assert 0 <= w < i && Flatten(parts)[w] == parts[j'][n'];
        }
      }
    }
  }

  /** Two consecutive elements of a concatenation are neighbours in one part,
      or the first ends its part and the second lies in a later part. */
  lemma {:induction false} FlattenNext<T>(parts: seq<seq<T>>, i: nat) returns (j: nat, n: nat, j2: nat, n2: nat)
    requires i + 1 < |Flatten(parts)|
    ensures j < |parts| && n < |parts[j]| && Flatten(parts)[i] == parts[j][n]
    ensures j2 < |parts| && n2 < |parts[j2]| && Flatten(parts)[i + 1] == parts[j2][n2]
    ensures (j2 == j && n2 == n + 1) || (j < j2 && n + 1 == |parts[j]|)
    decreases |parts|
  {
    if i + 1 < |parts[0]| {
      j, n, j2, n2 := 0, i, 0, i + 1;
    } else if i + 1 == |parts[0]| {
      var a, b := FlattenIndex(parts[1..], 0);
      j, n, j2, n2 := 0, i, a + 1, b;
    } else {
      var a, b, a2, b2 := FlattenNext(parts[1..], i - |parts[0]|);
      j, n, j2, n2 := a + 1, b, a2 + 1, b2;
    }
  }

  lemma FlattenCons<T>(x: seq<T>, rest: seq<seq<T>>)
    ensures Flatten([x] + rest) == x + Flatten(rest)
  {
    assert ([x] + rest)[1..] == rest;
  }

  lemma FlattenNewRun<T>(p: T, rest: seq<seq<T>>)
    ensures Flatten([[p]] + rest) == [p] + Flatten(rest)
  {
    FlattenCons([p], rest);
  }

  lemma FlattenJoin<T>(p: T, rest: seq<seq<T>>)
    requires |rest| > 0
    ensures Flatten([[p] + rest[0]] + rest[1..]) == [p] + Flatten(rest)
  {
    FlattenCons([p] + rest[0], rest[1..]);
    FlattenCons(rest[0], rest[1..]);
    assert [rest[0]] + rest[1..] == rest;
    AppendAssoc([p], rest[0], Flatten(rest[1..]));
  }

  lemma AppendAssoc<T>(a: seq<T>, b: seq<T>, c: seq<T>)
    ensures (a + b) + c == a + (b + c)
  {
  }
}

=== FILE: text.dfy ===
/** Character and string primitives that the engine borrows from Python:
    digit runs, `int(...)` on a digit string, `str(int)`, `str.zfill`,
    `str.find`, string ordering and the `re.sub(r"\d+$", "", s)` idiom.
    Digits are the ASCII digits `0`..`9`. */
module Text {
  import opened Wrappers

  predicate IsDigit(c: char) {
    '0' <= c <= '9'
  }

  predicate AllDigits(s: string) {
    forall i :: 0 <= i < |s| ==> IsDigit(s[i])
  }

  /** `int(s) == v` for a string of digits with an optional leading `-`. */
  predicate ReadsAs(s: string, v: int) {
    if v >= 0 then AllDigits(s) && ParseDecimal(s) == v
    else |s| >= 2 && s[0] == '-' && AllDigits(s[1..]) && ParseDecimal(s[1..]) == -v
  }

  predicate NoDigits(s: string) {
    forall i :: 0 <= i < |s| ==> !IsDigit(s[i])
  }

  function DigitValue(c: char): (d: nat)
    requires IsDigit(c)
    ensures d < 10
  {
    c as int - '0' as int
  }

  function DigitChar(d: nat): (c: char)
    requires d < 10
    ensures IsDigit(c) && DigitValue(c) == d
  {
    ('0' as int + d) as char
  }

  /** A digit string as Python's `str` of a non-negative int prints it:
      non-empty, and without a leading zero unless it is "0". */
  predicate Canonical(s: string) {
    |s| > 0 && AllDigits(s) && (s[0] == '0' ==> |s| == 1)
  }

  /** `int(s)` for a string of decimal digits; leading zeros do not count. */
  function ParseDecimal(s: string): nat
    requires AllDigits(s)
  {
    if s == [] then 0 else 10 * ParseDecimal(s[..|s| - 1]) + DigitValue(s[|s| - 1])
  }

  /** `str(n)` for a non-negative int. */
  function NatToString(n: nat): (s: string)
    ensures Canonical(s)
    decreases n
  {
    if n < 10 then [DigitChar(n)]
    else
      var s := NatToString(n / 10) + [DigitChar(n % 10)];
      assert s[0] == NatToString(n / 10)[0];
      s
  }

  /** `str(i)` for any int: a minus sign before the digits of `-i`. */
  function IntToString(i: int): (s: string)
    ensures |s| > 0
    ensures i >= 0 <==> s[0] != '-'
  {
    if i < 0 then "-" + NatToString(-i) else NatToString(i)
  }

  /** Parsing what `str` printed gives the number back. */
  lemma {:induction false} ParseNatToString(n: nat)
    ensures ParseDecimal(NatToString(n)) == n
    decreases n
  {
    if n >= 10 {
      var s := NatToString(n);
      assert s[..|s| - 1] == NatToString(n / 10);
      ParseNatToString(n / 10);
    }
  }

  lemma {:induction false} ParseAllZeros(s: string)
    requires AllDigits(s)
    requires ParseDecimal(s) == 0
    ensures forall i :: 0 <= i < |s| ==> s[i] == '0'
    decreases |s|
  {
    if s != [] {
      ParseAllZeros(s[..|s| - 1]);
      forall i | 0 <= i < |s|
        ensures s[i] == '0'
      {
        if i < |s| - 1 {
          assert s[i] == s[..|s| - 1][i];
        }
      }
    }
  }

  /** Printing what was parsed gives the string back when it is canonical. */
  lemma {:induction false} NatToStringParse(s: string)
    requires Canonical(s)
    ensures NatToString(ParseDecimal(s)) == s
    decreases |s|
  {
    if |s| > 1 {
      var t := s[..|s| - 1];
      assert t[0] == s[0];
      assert Canonical(t);
      if ParseDecimal(t) == 0 {
        ParseAllZeros(t);
        assert false;
      }
      NatToStringParse(t);
      var n := ParseDecimal(s);
      assert n / 10 == ParseDecimal(t) && n % 10 == DigitValue(s[|s| - 1]);
      assert s == t + [s[|s| - 1]];
    } else {
      assert s == [DigitChar(DigitValue(s[0]))];
    }
  }

  lemma NatToStringInjective(a: nat, b: nat)
    ensures NatToString(a) == NatToString(b) <==> a == b
  {
    if NatToString(a) == NatToString(b) {
      ParseNatToString(a);
      ParseNatToString(b);
    }
  }

  function Zeros(k: nat): (z: string)
    ensures |z| == k && AllDigits(z)
    ensures forall i :: 0 <= i < k ==> z[i] == '0'
  {
    seq(k, _ => '0')
  }

  /** Leading zeros leave the parsed value unchanged. */
  lemma {:induction false} ParseLeadingZeros(k: nat, s: string)
    requires AllDigits(s)
    ensures AllDigits(Zeros(k) + s)
    ensures ParseDecimal(Zeros(k) + s) == ParseDecimal(s)
    decreases |s|
  {
    var z := Zeros(k) + s;
    if s == [] {
      assert z == Zeros(k);
      ZerosParse(k);
    } else {
      assert z[..|z| - 1] == Zeros(k) + s[..|s| - 1];
      ParseLeadingZeros(k, s[..|s| - 1]);
    }
  }

  lemma {:induction false} ZerosParse(k: nat)
    ensures ParseDecimal(Zeros(k)) == 0
  {
    if k > 0 {
      assert Zeros(k)[..k - 1] == Zeros(k - 1);
      ZerosParse(k - 1);
    }
  }

  function Pow10(k: nat): (p: nat)
    ensures p > 0
  {
    if k == 0 then 1 else 10 * Pow10(k - 1)
  }

  /** A digit string of length `k` reads as less than `10^k`. */
  lemma {:induction false} ParseBound(s: string)
    requires AllDigits(s)
    ensures ParseDecimal(s) < Pow10(|s|)
    decreases |s|
  {
    if s != [] {
      ParseBound(s[..|s| - 1]);
    }
  }

  lemma MulAssoc10(x: int, y: int)
    ensures 10 * (x * y) == x * (10 * y)
  {
  }

  /** Reading `a + b` shifts the value of `a` by the length of `b`. */
  lemma {:induction false} ParseAppend(a: string, b: string)
    requires AllDigits(a) && AllDigits(b)
    ensures AllDigits(a + b)
    ensures ParseDecimal(a + b) == ParseDecimal(a) * Pow10(|b|) + ParseDecimal(b)
    decreases |b|
  {
    if b == [] {
      assert a + b == a;
    } else {
      var b' := b[..|b| - 1];
      var d := DigitValue(b[|b| - 1]);
      assert (a + b)[..|a + b| - 1] == a + b';
      assert ParseDecimal(a + b) == 10 * ParseDecimal(a + b') + d;
      ParseAppend(a, b');
      var x, y := ParseDecimal(a), Pow10(|b'|);
      MulAssoc10(x, y);
      assert ParseDecimal(b) == 10 * ParseDecimal(b') + d;
    }
  }

  /** A digit string splits into its last `k` digits, which read as less
      than `10^k`, and the rest, worth `10^k` times its own value. */
  lemma LastDigits(s: string, k: nat)
    requires AllDigits(s) && k <= |s|
    ensures ParseDecimal(s[|s| - k..]) < Pow10(k)
    ensures ParseDecimal(s) == ParseDecimal(s[..|s| - k]) * Pow10(k) + ParseDecimal(s[|s| - k..])
  {
    var a, b := s[..|s| - k], s[|s| - k..];
    assert s == a + b;
    ParseAppend(a, b);
    ParseBound(b);
  }

  /** Python's `s.zfill(width)`: zeros are inserted after a leading sign
      until the string is `width` long; a string already that long is kept. */
  function ZFill(s: string, width: int): (r: string)
    ensures |r| == if |s| >= width then |s| else width
    ensures |s| >= width ==> r == s
    ensures |s| < width && (s == [] || (s[0] != '-' && s[0] != '+')) ==>
              r == Zeros(width - |s|) + s
    ensures |s| < width && s != [] && (s[0] == '-' || s[0] == '+') ==>
              r == [s[0]] + Zeros(width - |s|) + s[1..]
  {
    if |s| >= width then s
    else if s != [] && (s[0] == '-' || s[0] == '+') then [s[0]] + Zeros(width - |s|) + s[1..]
    else Zeros(width - |s|) + s
  }

  /** `pat` occurs in `text` at index `i`. */
  predicate OccursAt(text: string, pat: string, i: int) {
    0 <= i && i + |pat| <= |text| && text[i..i + |pat|] == pat
  }

  /** `pat` occurs in `text` at `j` and nowhere before. */
  ghost predicate FirstOccurrence(text: string, pat: string, j: int) {
    OccursAt(text, pat, j) && forall j' :: 0 <= j' < j ==> !OccursAt(text, pat, j')
  }

  function FindFrom(text: string, pat: string, from: nat): (r: Option<nat>)
    ensures r.Some? ==> from <= r.value && OccursAt(text, pat, r.value)
    ensures r.Some? ==> forall j :: from <= j < r.value ==> !OccursAt(text, pat, j)
    ensures r.None? ==> forall j :: from <= j ==> !OccursAt(text, pat, j)
    decreases |text| - from
  {
    if from + |pat| > |text| then None
    else if text[from..from + |pat|] == pat then Some(from)
    else FindFrom(text, pat, from + 1)
  }

  /** Python's `text.find(pat)`: the lowest index where `pat` occurs, with
      `None` standing for the `-1` the source tests for. */
  function Find(text: string, pat: string): (r: Option<nat>)
    ensures r.Some? ==> OccursAt(text, pat, r.value)
    ensures r.Some? ==> forall j :: 0 <= j < r.value ==> !OccursAt(text, pat, j)
    ensures r.None? <==> forall j :: !OccursAt(text, pat, j)
  {
    FindFrom(text, pat, 0)
  }

  /** `needle in hay` for strings. */
  predicate Contains(hay: string, needle: string)
    ensures Contains(hay, needle) <==> exists i :: OccursAt(hay, needle, i)
  {
    Find(hay, needle).Some?
  }

  /** Python's `<` on strings: code point by code point, a proper prefix
      sorting first. */
  predicate StrLt(a: string, b: string) {
    if a == [] then b != []
    else if b == [] then false
    else if a[0] != b[0] then a[0] < b[0]
    else StrLt(a[1..], b[1..])
  }

  lemma {:induction false} StrLtIrreflexive(a: string)
    ensures !StrLt(a, a)
  {
    if a != [] {
      StrLtIrreflexive(a[1..]);
    }
  }

  lemma {:induction false} StrLtTransitive(a: string, b: string, c: string)
    requires StrLt(a, b) && StrLt(b, c)
    ensures StrLt(a, c)
  {
    if a != [] && b != [] && c != [] && a[0] == b[0] && b[0] == c[0] {
      StrLtTransitive(a[1..], b[1..], c[1..]);
    }
  }

  lemma {:induction false} StrLtTotal(a: string, b: string)
    ensures a == b || StrLt(a, b) || StrLt(b, a)
  {
    if a != [] && b != [] && a[0] == b[0] {
      StrLtTotal(a[1..], b[1..]);
      if a[1..] == b[1..] {
        assert a == [a[0]] + a[1..] && b == [b[0]] + b[1..];
      }
    }
  }

  /** Length of the maximal run of digits at the end of `s`. */
  function TrailingDigitCount(s: string): (k: nat)
    ensures k <= |s|
    ensures AllDigits(s[|s| - k..])
    ensures k < |s| ==> !IsDigit(s[|s| - k - 1])
  {
    if s == [] || !IsDigit(s[|s| - 1]) then 0
    else
      var t := s[..|s| - 1];
      var k := 1 + TrailingDigitCount(t);
      assert AllDigits(s[|s| - k..]) by {
        var u, w := s[|s| - k..], t[|t| - (k - 1)..];
        forall i | 0 <= i < |u|
          ensures IsDigit(u[i])
        {
          if i < k - 1 {
            assert u[i] == w[i];
          }
        }
      }
      k
  }

  /** `re.sub(r"\d+$", "", p)`. Python's `$` also matches just before a
      final newline, so in `"...12\n"` the digits before the newline go
      and the newline stays. */
  function StripDigitSuffix(p: string): (r: string)
    ensures |p| > 0 && p[|p| - 1] == '\n' ==>
              exists k :: 0 <= k < |p| && r == p[..k] + "\n" && AllDigits(p[k..|p| - 1])
                && (k > 0 ==> !IsDigit(p[k - 1]))
    ensures (|p| == 0 || p[|p| - 1] != '\n') ==>
              |r| <= |p| && r + p[|r|..] == p && AllDigits(p[|r|..])
                && (|r| > 0 ==> !IsDigit(r[|r| - 1]))
  {
    if |p| > 0 && p[|p| - 1] == '\n' then
      var q := p[..|p| - 1];
      var k := |q| - TrailingDigitCount(q);
      assert q[..k] == p[..k];
      assert q[k..] == p[k..|p| - 1];
      q[..k] + "\n"
    else
      p[..|p| - TrailingDigitCount(p)]
  }
}

=== FILE: wrappers.dfy ===
/** The optional-value type shared by the whole model: Python's `None`
    versus a present value. */
module Wrappers {

  datatype Option<+T> = None | Some(value: T) {

    /** The value, or `default` when absent. */
    function GetOr(default: T): T {
      match this
      case Some(v) => v
      case None => default
    }
  }
}
